=== FILE: README.md ===
# fuse-passthrough bookkeeping, modelled in Dafny

The passthrough filesystem mirrors a host directory through the kernel's
FUSE protocol. Requests from the kernel do not name files by path. They name
inodes (stable numbers) and file handles. The program therefore keeps two
tables in `PassthroughFS`:

- the identity table: `inode_to_path`, `path_to_inode` and the `next_inode`
  counter. Inode 1 is the root, which is the empty relative path.
- the handle table: `open_files` and the `next_fh` counter.

Most callbacks of `impl Filesystem for PassthroughFS` resolve an inode or a
handle through these tables, do one or more host filesystem calls,
translate what the host answered into a reply, and may intern, forget or
move a path on the way. There are exceptions:

- statfs neither resolves nor calls the host.
- release only drops the handle.
- flush and fsync on an unknown handle make no call.
- a request whose inode or parent does not resolve is refused before any
  host call.

This project models that bookkeeping as pure Dafny functions.

- `types.dfy`: the machine widths, plus the two lossy casts the program
  performs. These are `as u32` on a `u64`, and `as u64` (or `as usize`) on
  an `i64`.
- `paths.dfy`: relative paths as sequences of names. `join` of a
  single-component name appends that name.
- `inode_table.dfy`: `new`, `get_path`, `get_or_create_inode`, the forget
  step of unlink/rmdir and the move step of rename.
- `handle_table.dfy`: handle issue (open, create) and release.
- `attr.dfy`: `metadata_to_attr`.
- `open_flags.dfy`: access-mode and O_APPEND/O_TRUNC decoding for open and
  create, and setattr's uid/gid defaulting.
- `readdir.dfy`: the `. + .. + children` listing and its pagination into the
  kernel's reply buffer.
- `passthrough.dfy`: every callback.
  - Each one is a function of the session state and of what the host
    answered.
  - Each one returns the new state, the host calls it made explicitly
    and the reply. A `File` closed by being dropped is not a recorded call.
    The calls are listed in the order they are issued, with one
    exception. readdir's enumeration is a single `ListDir` call, followed by
    one `EntryMetadata` query per child in enumeration order. On the host
    those queries are interleaved with the steps of the enumeration.
  - "ENOENT before any host call, nothing changed" is therefore a statement
    about the result (`Refused`).
- `session.dfy`: a session as a sequence of requests. It holds the
  properties that span requests.

The identity table has two invariants:

- `Coherent`: the root is inode 1 ↔ the empty path. Every inode lies below
  the counter. Every interned path resolves back to itself.
- `Bijective`: the two maps are exact inverses.

The model could state the stronger of the two, `Bijective`, as the table's
invariant. The code does not keep it, and the model follows the code. rename
moves the source's inode onto the destination path. If the destination was
already interned under another inode, that inode is left in `inode_to_path`,
still pointing at the destination path.

- `Session.StepKeepsBijective` states exactly when a request keeps the
  bijection: every request keeps it except such a rename.
- `InodeTable.StaleInodeExample` is a concrete instance.
- `Coherent` holds across every request (`Session.Run`).

Inode and handle numbers are never reused. The model states this as `NoReuse`
between two states: neither counter goes down, and every inode or handle
known in the later state but not in the earlier one lies at or above the
earlier counter.

- `InodeTable.NoReuse` and `HandleTable.NoReuse` are guaranteed by each
  table operation.
- `Session.Run` carries `NoReuse` across any session of requests.
- `Session.UnlinkedInodeNeverReturns` shows what this means: once an inode
  is unlinked, no later request interns it again.
- `Session.RunIssuesIncreasingHandles` adds that the handles a session's
  open and create replies carry strictly increase.
- `HandleTable.Run` and `HandleTable.IssuedHandlesAreFresh` state the same
  at the level of the handle table alone, for a history of inserts and
  removes.

## Model

| member | source | states |
|---|---|---|
| Types.Trunc32 | src/main.rs:125-129 | `as u32` never fails: the result is the input modulo 2^32, and it equals the input exactly when the input fits in 32 bits |
| Types.AsU64 | src/main.rs:266 | `offset as u64` keeps non-negative offsets and sends negative ones to 2^63 or above, congruent modulo 2^64 |
| Paths.Join | src/main.rs:147 | joining a name to a parent path gives a non-root path one component longer, the parent followed by the name |
| Paths.JoinInjective | src/main.rs:147 | a joined child path determines its parent path and its name |
| InodeTable.Init | src/main.rs:53-69 | a new table knows only the root, as inode 1 ↔ empty path, in both directions; the next inode is 2 |
| InodeTable.GetPath | src/main.rs:77-79 | an inode resolves exactly when it is in the inode map, and to the path stored for it there; the root resolves to the empty path; under exact inverses the path resolved maps back to the inode |
| InodeTable.Intern | src/main.rs:82-95 | a known path returns its inode and changes nothing; an unknown path receives the counter's value, which no inode had, the counter advances, and that pair alone is added to both maps; the table only grows and the path resolves to the inode returned |
| InodeTable.InternIdempotent | src/main.rs:82-95 | interning the same path twice gives the same inode and leaves the table as the first call left it |
| InodeTable.ResolveThenIntern | src/main.rs:77-95 | with exact inverses, interning the path of a known inode returns that inode, and distinct inodes have distinct paths |
| InodeTable.CoherentPathMapInjective | src/main.rs:82-95 | under the weaker invariant no two paths share an inode |
| InodeTable.Forget | src/main.rs:542-548 | after unlink/rmdir the exact path and its inode leave both maps; every other entry stays, including entries below a removed directory; the counter is not lowered; both invariants survive for non-root paths |
| InodeTable.Move | src/main.rs:621-632 | after rename an interned source's inode moves to the destination path in both maps; other entries and the counter are kept; an unknown source changes nothing; the invariant survives, and the bijection survives when the destination was not interned |
| InodeTable.MoveOntoInternedTargetLeavesStaleInode | src/main.rs:621-632 | renaming onto a distinct interned destination leaves the destination's former inode resolving to the destination, whose path now maps to the moved inode, so the maps stop being inverses |
| InodeTable.StaleInodeExample | src/main.rs:621-632 | with `a` as inode 2 and `b` as inode 3, renaming `a` onto `b` leaves both inodes resolving to `b` |
| HandleTable.Init | src/main.rs:66-67 | a new handle table has no open file and will issue handle 1 first |
| HandleTable.Get | src/main.rs:263-264 | a handle resolves exactly when it is open, and to the file stored under it; an open handle lies below the counter |
| HandleTable.Insert | src/main.rs:399-400 | the handle issued is the counter's value, which no live handle carries; the file is stored under it and the counter advances |
| HandleTable.Remove | src/main.rs:421 | release drops exactly that handle, keeps every other one and the counter, and does nothing for an unknown handle |
| HandleTable.Run | src/main.rs:399-421 | at the table level, a history of inserts and removes keeps every live handle below the counter and never lowers it |
| HandleTable.IssuedHandlesAreFresh | src/main.rs:399-400 | across any history the handles issued strictly increase, lie between the starting and final counter, and never collide with a handle live at the start |
| Attr.Classify | src/main.rs:99-105 | directory exactly when the directory flag is set, symlink exactly when only the symlink flag is, regular file otherwise |
| Attr.PermBits | src/main.rs:124 | the permission is below 0o10000 and, put back together with the mode's bits above 0o7777, gives the mode again |
| Attr.ChangeTime | src/main.rs:113 | the change time is whole seconds: the signed seconds when non-negative, a value of 2^63 or more when negative |
| Attr.OrEpoch | src/main.rs:107-112 | a missing access or modification time reads as the epoch |
| Attr.MetadataToAttr | src/main.rs:98-132 | the inode is echoed; the kind is classified; the permission is the low twelve mode bits; size, blocks, uid and gid are copied; link count, device and block size are narrowed to 32 bits; creation time is the epoch and flags are zero |
| Attr.FileTypeBitsDoNotReachPerm | src/main.rs:124 | changing the mode's file-type bits never changes the permission reported |
| OpenFlags.AccessModeBits | src/main.rs:387-390 | read is wanted exactly when the low flag bit is clear, write exactly when the two low bits differ, both exactly for O_RDWR, neither for access mode 3; other bits play no part |
| OpenFlags.OpenOptionsForOpen | src/main.rs:387-396 | open asks for read and write per the access mode, for append exactly when O_APPEND is set, and never creates or truncates |
| OpenFlags.OpenOptionsForCreate | src/main.rs:448-458 | create asks for read and write per the access mode, always creates, truncates exactly when O_TRUNC is set, and never appends |
| OpenFlags.ChownArgs | src/main.rs:229-235 | chown is issued exactly when a uid or a gid is given, and a missing one is passed as `u32::MAX` |
| OpenFlags.ChownKeepsMissingIds | src/main.rs:229-235 | a note on host semantics, with chown(2) modelled by `ChownApply`: the `u32::MAX` default for a missing id keeps the current owner or group, and a given id replaces it |
| Readdir.Flatten | src/main.rs:345 | failed enumeration items are dropped; the successful children remain in enumeration order, each once per successful item, and nothing else |
| Readdir.ChildKind | src/main.rs:350-360 | a child's kind is classified from its metadata, and is a regular file when the metadata query fails |
| Readdir.InternChildren | src/main.rs:345-363 | every child gets one listing entry, in enumeration order, with the child's name and its classified kind |
| Readdir.NewPathsAreTheNewChildren | src/main.rs:345-348 | the paths readdir allocates inodes for are exactly the children's paths not yet interned, each once, so there are as many as such paths |
| Readdir.InternChildrenCounter | src/main.rs:345-348 | interning the children advances the counter once per distinct new path |
| Readdir.InternChildInode | src/main.rs:345-348 | a known child keeps its inode; a new child gets the counter's value plus its position among the new paths, in enumeration order |
| Readdir.InternChildrenInodes | src/main.rs:345-348 | the same, for every child at once |
| Readdir.InternChildrenAllocatesInOrder | src/main.rs:345-348 | readdir allocates inodes in enumeration order, and the counter ends advanced by the number of distinct new child paths |
| Readdir.AllocationOrderExample | src/main.rs:345-348 | listing `x` then `y` in a fresh root gives them inodes 2 and 3 and leaves the counter at 4 |
| Readdir.InternChildrenResolves | src/main.rs:345-363 | interning the children keeps the table coherent and only adds to it, and each entry carries the inode its child's path resolves to afterwards |
| Readdir.InternChildrenAddsExactlyChildren | src/main.rs:345-363 | listing adds exactly the children's paths to the path map and keeps an exact-inverse table exact |
| Readdir.InternChildrenNoReuse | src/main.rs:345-363 | interning the children never lowers the counter, and every inode it adds lies at or above the starting counter |
| Readdir.InternChildrenKeepsPathMap | src/main.rs:345-363 | interning the children never changes the inode of a path already interned |
| Readdir.InternChildrenPathMap | src/main.rs:345-363 | after interning, each child's path maps to the inode of its listing entry |
| Readdir.InternKnownChildren | src/main.rs:345-363 | children whose paths are all interned leave the table unchanged, and each entry carries the inode its path already had |
| Readdir.Listing | src/main.rs:340-363 | the listing is `.` and `..` carrying the directory's own inode, typed directory, then one entry per child whose inode resolves to the child's path |
| Readdir.ListingIsStable | src/main.rs:340-363 | listing the same children again, on the table the first listing left, changes nothing and gives the same entries |
| Readdir.DirentSize | src/main.rs:366 | an entry takes the 24-byte header plus its name, rounded up to a multiple of 8 |
| Readdir.PageIsMaximalRun | src/main.rs:365-369 | a reply is the contiguous run of the listing from the offset, each entry with cookie index + 1; it fits the buffer and stops only at the end of the listing or at the first entry that would overflow |
| Readdir.Paginate | src/main.rs:365-369 | the loop over the listing from `offset as usize`, stopping when the buffer reports full, emits exactly that maximal run |
| Readdir.PageCookies | src/main.rs:365-366 | cookies are consecutive from offset + 1, and an offset at or past the end emits nothing |
| Readdir.AllPagesCoverListing | src/main.rs:365-369 | when every entry fits an empty buffer, paging from each reply's last cookie yields the whole listing, each entry once and in order |
| Passthrough.New | src/main.rs:53-69 | the session starts with only the root interned, the next inode 2, no open handle and the next handle 1 |
| Passthrough.Lookup | src/main.rs:136-160 | an unknown parent is ENOENT with no host call; otherwise the child is stat'ed, and on success the table is exactly the one interning the joined path gives, and the entry carries the inode interning returned, which the path now resolves to |
| Passthrough.GetAttr | src/main.rs:162-184 | the inode's path is stat'ed and its attributes are replied under the inode asked for; nothing changes |
| Passthrough.TruncateSteps | src/main.rs:217-221 | truncation opens the file write-only only for a given size, and sets the length only if that open worked |
| Passthrough.ChmodSteps | src/main.rs:224-226 | the mode is set only when one is given |
| Passthrough.ChownSteps | src/main.rs:229-236 | chown is issued only when a uid or a gid is given, with the defaulted ids |
| Passthrough.SetAttrSteps | src/main.rs:216-236 | each sub-step is issued exactly for the fields given, and nothing else is issued: every call is the truncation's open or set_len, chmod or chown, on the entry's path |
| Passthrough.SetAttrStepsInOrder | src/main.rs:216-236 | the sub-steps come in the order open for truncation, set length, chmod, chown |
| Passthrough.SetAttr | src/main.rs:186-248 | an unknown inode is refused; otherwise the sub-steps are followed by a final stat whose outcome alone decides the reply; the tables never change |
| Passthrough.Read | src/main.rs:250-279 | data is replied exactly when the handle is open, the seek succeeds and the read succeeds, and it is the bytes read; every other case is ENOENT; an unknown handle issues no host call |
| Passthrough.Write | src/main.rs:281-310 | a count is replied exactly when the handle is open, the seek succeeds and the write succeeds, and it is the count narrowed to 32 bits; every other case is ENOENT |
| Passthrough.ReadDir | src/main.rs:312-372 | an unknown inode is refused; a failed listing is ENOENT with nothing changed; otherwise the directory is listed and each child's metadata queried, every child is interned and the reply is the page of the listing from the offset |
| Passthrough.Open | src/main.rs:374-408 | a handle is replied exactly when the inode resolves, the standard library accepts the options and the host open succeeds; the handle table is then exactly the one storing the file under the next handle; options the standard library rejects (access mode 3 without O_APPEND) fail before any host call; any failure is ENOENT with nothing changed |
| Passthrough.Release | src/main.rs:410-423 | release replies ok with no recorded host call, and drops exactly that handle, known or not |
| Passthrough.Create | src/main.rs:425-483 | flags that do not ask for write access are rejected by the standard library before any host call; otherwise, after the host open, the mode is set, the path interned and a fresh handle stored, then it is stat'ed; a failing final stat is ENOENT but keeps the inode and the handle |
| Passthrough.Mkdir | src/main.rs:485-526 | any failure to create the directory is EEXIST with nothing changed; on success the mode is set, the path interned and the entry replied |
| Passthrough.RemoveEntry | src/main.rs:528-584 | a successful removal forgets exactly the joined path; a failed one is ENOENT with nothing changed |
| Passthrough.Unlink | src/main.rs:528-555 | unlink removes the file, then forgets the joined path and its inode and nothing else |
| Passthrough.Rmdir | src/main.rs:557-584 | rmdir removes the directory, then forgets the joined path and its inode, while entries below it stay; any failure is ENOENT |
| Passthrough.Rename | src/main.rs:586-639 | both parents must resolve, else ENOENT with no host call; after a successful host rename the identity entry moves; the invariant is kept |
| Passthrough.Access | src/main.rs:703-721 | access only checks that the path exists |
| Passthrough.ReadLinkOp | src/main.rs:723-744 | readlink replies the link target's bytes, or ENOENT |
| Passthrough.SymlinkOp | src/main.rs:746-785 | any failure to create the link is ENOSYS with nothing changed; on success the link is interned and its entry comes from the stat that does not follow links |
| Passthrough.Sync | src/main.rs:787-815 | flush and fsync sync the file only for an open handle, and reply ok in every case |
| Passthrough.StatFs | src/main.rs:641-643 | statfs replies the fixed record: zero counts, block size 512, name length 255 |
| Session.Step | src/main.rs:136-815 | only open, create and release change the handle table; only the requests naming a parent and a name, and readdir, change the identity table |
| Session.StepKeepsConsistent | src/main.rs:136-815 | every callback keeps the identity table coherent and every live handle below the handle counter |
| Session.StepNeverReuses | src/main.rs:82-95 | no request lowers a counter or brings back an inode or handle below the counter it started with |
| Session.Run | src/main.rs:136-815 | a session of requests gives one reply per request, keeps that invariant and never reuses an inode or a handle |
| Session.RunIsStepByStep | src/main.rs:136-815 | reply k of a session is the reply of request k's callback on the state the first k requests left, and that callback's state is the one the first k + 1 requests leave |
| Session.StepKeepsBijective | src/main.rs:586-639 | a request keeps the maps exact inverses exactly when it is not a successful rename onto a distinct, already interned path |
| Session.RunKeepsBijective | src/main.rs:136-815 | a session without such a rename keeps the maps exact inverses |
| Session.LookupThenGetAttr | src/main.rs:136-184 | getattr on the inode a lookup replied stats exactly the path that was looked up |
| Session.RenamedInodeFollowsEntry | src/main.rs:586-639 | after a successful rename the moved inode stats the new path, and looking up the new name gives the same inode back |
| Session.UnlinkedInodeIsUnknown | src/main.rs:528-555 | after a successful unlink, getattr on the removed path's inode is ENOENT with no host call |
| Session.UnlinkedInodeNeverReturns | src/main.rs:82-95 | after a successful unlink, no later session of requests interns the removed path's inode again |
| Session.ReadDirAgainPagesSameListing | src/main.rs:312-372 | reading a directory again with the same enumeration changes nothing and pages through the same entry list, so the cookies of one reply stay valid for the next |
| Session.StepIssuesNextHandle | src/main.rs:397-401 | no request lowers the handle counter, and a handle replied by open or create is the counter's value, which it advances past |
| Session.RunIssuesIncreasingHandles | src/main.rs:374-483 | across any session the handles replied by open and create strictly increase and lie between the starting and final counters |
| Session.OpenTwiceGivesDistinctHandles | src/main.rs:374-408 | two successful opens, even of the same inode, get distinct handles that both stay open |
| Session.ReleasedHandleIsRefused | src/main.rs:250-279 | a read on a released handle is ENOENT with no host call |
| Session.AccessIgnoresMask | src/main.rs:703-721 | the access mask never changes the outcome |

## Left out

- Host filesystem calls are not modelled. Each callback returns the calls
  it issues.
  - The answers of stat, open, seek, read, write, list, the per-child
    metadata query, create_dir, remove, rename, exists, read_link and
    symlink are inputs to the callback: the answer the host gave.
  - set_len, set_permissions, chown and sync_all have no answer in the
    model. The source discards their results (src/main.rs:219, 225, 234,
    462, 509, 797, 812), so only the call is recorded.
- Concurrency is not modelled. The `Mutex` locks and the atomic
  `fetch_add` are left out, and each callback is one atomic step.
- `next_inode` and `next_fh` are unbounded. The source's `u64` counters
  would wrap only after 2^64 allocations.
- Paths are sequences of single-component names. The host's path
  normalisation is left out, including an absolute or multi-component
  `join` argument, `.`/`..` inside a name, and `real_path`'s prefixing
  with the mirrored root (src/main.rs:72-74).
- Names are Dafny strings. The lossy UTF-8 conversion of child names
  (src/main.rs:346) and the byte length of non-ASCII names are left out.
- The reply buffer's full rule belongs to the fuser
  crate, which is not part of this model. The model uses that crate's
  24-byte `fuse_dirent` header plus the name, rounded up to 8 bytes.
  `add` reports full, without adding, when the entry does not fit.
- The entry/attribute TTL and the generation number are constants of the
  reply and are not modelled (src/main.rs:18).
- The access and modification times are left opaque. A `SystemTime` is
  taken as seconds and nanoseconds.
- Attr.ChangeTime: the source adds the reinterpreted seconds to the
  epoch, which panics on overflow for a negative change time. The model
  carries the reinterpreted value instead of the panic.
- Passthrough.Read: it requires that the host read returns no more bytes
  than the buffer holds. This is the `std::io::Read` guarantee that the
  slice `buffer[..bytes_read]` relies on.
- Passthrough.SetAttr: the panics of the chown step are not modelled.
  These occur on a non-UTF-8 path or one containing a NUL byte
  (src/main.rs:232-233). The atime/mtime, handle and flag arguments are
  ignored by the source and absent from the model.
- `std::fs::OpenOptions` is Rust standard library code, not the
  program's. The model keeps only its validation (`OpenFlags.StdAccepts`).
  Some access must be asked for. Create and truncate need write or
  append. Append excludes truncate.
- Passthrough.ReadLinkOp: the reply carries the link target's raw bytes.
  The lossy UTF-8 re-encoding of the target (src/main.rs:738) is left out.
  It replaces every invalid sequence with U+FFFD, so the two differ only
  for non-UTF-8 targets.
- Passthrough.Release: dropping the removed `File` closes its descriptor
  (src/main.rs:421). The model records only the calls the source makes
  explicitly, so no close is recorded. The same holds for the file that
  setattr opens for truncation, which is closed when its block ends
  (src/main.rs:218-220).
- The `debug!` and `error!` logging in every callback is left out. It has
  no effect on the tables or the replies.
- The open flags in `reply.opened` and `reply.created` are the constant 0
  (src/main.rs:401, 471). The model's `Opened` and `Created` replies carry
  no flags.
- The macOS-only `exchange` callback (src/main.rs:645-701) is not
  modelled. It is compiled only on macOS and repeats rename's bookkeeping
  line for line.
- Command-line parsing, mounting and signal handling in `main`
  (src/main.rs:818-896) are not modelled.
- The error numbers and open-flag values are Linux's: ENOENT 2, EEXIST 17,
  ENOSYS 38, O_ACCMODE 3, O_TRUNC 0o1000, O_APPEND 0o2000.

=== FILE: attr.dfy ===
/** Host metadata and its translation into the protocol's attribute record
    (`metadata_to_attr` in src/main.rs). */
module Attr {
  import opened Types

  datatype FileType = Directory | Symlink | RegularFile

  /** A point in time as seconds and nanoseconds after the Unix epoch. */
  datatype Time = Time(secs: nat, nanos: nat)

  const EPOCH: Time := Time(0, 0)

  /** Mask of the permission bits plus setuid, setgid and sticky (0o7777). */
  const PERM_MASK: bv32 := 0xFFF

  /** The fields of a host `std::fs::Metadata` the translation reads. The
      access and modification times are optional because the host may not
      support them. */
  datatype Metadata = Metadata(
    isDir: bool,
    isSymlink: bool,
    mode: bv32,
    size: u64,
    blocks: u64,
    nlink: u64,
    uid: u32,
    gid: u32,
    rdev: u64,
    blksize: u64,
    accessed: Option<Time>,
    modified: Option<Time>,
    ctime: i64)

  /** The protocol attribute record (`fuser::FileAttr`). */
  datatype FileAttr = FileAttr(
    ino: nat,
    size: u64,
    blocks: u64,
    atime: Time,
    mtime: Time,
    ctime: Time,
    crtime: Time,
    kind: FileType,
    perm: bv16,
    nlink: u32,
    uid: u32,
    gid: u32,
    rdev: u32,
    blksize: u32,
    flags: u32)

  /** Type classification: a directory flag wins over a symlink flag, and
      anything else is a regular file. */
  function Classify(isDir: bool, isSymlink: bool): (k: FileType)
    ensures k == Directory <==> isDir
    ensures k == Symlink <==> !isDir && isSymlink
    ensures k == RegularFile <==> !isDir && !isSymlink
  {
    if isDir then Directory
    else if isSymlink then Symlink
    else RegularFile
  }

  /** `(mode & 0o7777) as u16`: the low twelve bits of the mode. The
      permission and the mode's remaining (file-type) bits put back together
      give the mode again. */
  function PermBits(mode: bv32): (perm: bv16)
    ensures perm < 0x1000
    ensures (perm as bv32) | (mode & !PERM_MASK) == mode
  {
    (mode & PERM_MASK) as bv16
  }

  /** The change time: the host's signed seconds reinterpreted as unsigned,
      whole seconds after the epoch. */
  function ChangeTime(secs: i64): (t: Time)
    ensures t.nanos == 0
    ensures secs >= 0 ==> t.secs == secs
    ensures secs < 0 ==> t.secs >= TWO_63
  {
    Time(AsU64(secs), 0)
  }

  /** An optional host time, defaulting to the epoch (`unwrap_or(UNIX_EPOCH)`). */
  function OrEpoch(t: Option<Time>): (r: Time)
    ensures t.Some? ==> r == t.value
    ensures t.None? ==> r == EPOCH
  {
    match t
    case Some(v) => v
    case None => EPOCH
  }

  /** `metadata_to_attr`: the inode is echoed, the kind is classified, the
      permission keeps only the low twelve mode bits, the link count, device
      number and block size are narrowed to 32 bits without being rejected,
      the change time is whole seconds, the creation time is the epoch and the flags are zero. */
  function MetadataToAttr(m: Metadata, ino: nat): (a: FileAttr)
    ensures a.ino == ino
    ensures a.kind == Classify(m.isDir, m.isSymlink)
    ensures a.perm < 0x1000 && (a.perm as bv32) | (m.mode & !PERM_MASK) == m.mode
    ensures a.size == m.size && a.blocks == m.blocks
    ensures a.uid == m.uid && a.gid == m.gid
    ensures a.nlink == Trunc32(m.nlink) && a.rdev == Trunc32(m.rdev) && a.blksize == Trunc32(m.blksize)
    ensures m.nlink < TWO_32 ==> a.nlink == m.nlink
    ensures a.atime == OrEpoch(m.accessed) && a.mtime == OrEpoch(m.modified)
    ensures a.ctime == ChangeTime(m.ctime)
    ensures a.crtime == EPOCH && a.flags == 0
  {
    FileAttr(
      ino := ino,
      size := m.size,
      blocks := m.blocks,
      atime := OrEpoch(m.accessed),
      mtime := OrEpoch(m.modified),
      ctime := ChangeTime(m.ctime),
      crtime := EPOCH,
      kind := Classify(m.isDir, m.isSymlink),
      perm := PermBits(m.mode),
      nlink := Trunc32(m.nlink),
      uid := m.uid,
      gid := m.gid,
      rdev := Trunc32(m.rdev),
      blksize := Trunc32(m.blksize),
      flags := 0)
  }

  /** The bits above 0o7777 (the file type) never reach the permission:
      changing them leaves the translated permission as it was. */
  lemma FileTypeBitsDoNotReachPerm(m: Metadata, typeBits: bv32, ino: nat)
    requires typeBits & PERM_MASK == 0
    ensures MetadataToAttr(m.(mode := (m.mode & PERM_MASK) | typeBits), ino).perm == MetadataToAttr(m, ino).perm
  {
  }
}

=== FILE: handle_table.dfy ===
/** The handle table of the passthrough filesystem: `open_files` and the
    `next_fh` counter. The open host file is a type parameter; the model
    never looks inside it. */
module HandleTable {
  import opened Types

  datatype Handles<F> = Handles(openFiles: map<nat, F>, nextFh: nat)

  /** Every live handle was issued earlier: it lies in [1, nextFh). */
  ghost predicate Valid<F>(h: Handles<F>) {
    && 1 <= h.nextFh
    && forall fh :: fh in h.openFiles ==> 1 <= fh < h.nextFh
  }

  /** Handles are not reused from `h` to `g`: the counter never goes down,
      and every handle live in `g` but not in `h` is at or above `h`'s
      counter, so a released handle never returns. */
  ghost predicate NoReuse<F>(h: Handles<F>, g: Handles<F>) {
    && h.nextFh <= g.nextFh
    && forall fh :: fh in g.openFiles && fh !in h.openFiles ==> h.nextFh <= fh
  }

  lemma NoReuseTransitive<F>(h: Handles<F>, g: Handles<F>, k: Handles<F>)
    ensures NoReuse(h, g) && NoReuse(g, k) ==> NoReuse(h, k)
  {
  }

  /** The table built by `PassthroughFS::new`: nothing open, first handle 1. */
  function Init<F>(): (h: Handles<F>)
    ensures Valid(h)
    ensures h.openFiles == map[]
    ensures h.nextFh == 1
  {
    Handles(map[], 1)
  }

  /** Look up an open handle; `None` for a handle never issued or released. */
  function Get<F>(h: Handles<F>, fh: nat): (r: Option<F>)
    ensures r.Some? <==> fh in h.openFiles
    ensures r.Some? ==> r.value == h.openFiles[fh]
    ensures Valid(h) && r.Some? ==> 1 <= fh < h.nextFh
  {
    if fh in h.openFiles then Some(h.openFiles[fh]) else None
  }

  /** open/create: store the file under `fh = next_fh`, then advance the
      counter. The handle is fresh: no live handle carries it. */
  function Insert<F>(h: Handles<F>, f: F): (r: (Handles<F>, nat))
    ensures r.1 == h.nextFh && r.0.nextFh == h.nextFh + 1
    ensures r.0.openFiles == h.openFiles[r.1 := f]
    ensures Get(r.0, r.1) == Some(f)
    ensures Valid(h) ==> r.1 !in h.openFiles && Valid(r.0)
    ensures NoReuse(h, r.0)
  {
    (Handles(h.openFiles[h.nextFh := f], h.nextFh + 1), h.nextFh)
  }

  /** release: drop exactly `fh`; releasing an unknown handle changes nothing. */
  function Remove<F>(h: Handles<F>, fh: nat): (r: Handles<F>)
    ensures Get(r, fh) == None
    ensures r.openFiles.Keys == h.openFiles.Keys - {fh}
    ensures forall g :: g in r.openFiles ==> r.openFiles[g] == h.openFiles[g]
    ensures fh !in h.openFiles ==> r == h
    ensures r.nextFh == h.nextFh
    ensures Valid(h) ==> Valid(r)
    ensures NoReuse(h, r)
  {
    Handles(h.openFiles - {fh}, h.nextFh)
  }

  /** The table operations a session performs, in order. */
  datatype Op<F> = Open(file: F) | Release(fh: nat)

  /** Run a history of opens and releases; returns the final table and the
      handles the opens received, in order. */
  function Run<F>(h: Handles<F>, ops: seq<Op<F>>): (r: (Handles<F>, seq<nat>))
    ensures Valid(h) ==> Valid(r.0)
    ensures h.nextFh <= r.0.nextFh
    decreases |ops|
  {
    if ops == [] then (h, [])
    else
      match ops[0]
      case Open(f) =>
        var (h', fh) := Insert(h, f);
        var (h'', issued) := Run(h', ops[1..]);
        (h'', [fh] + issued)
      case Release(fh) =>
        Run(Remove(h, fh), ops[1..])
  }

  /** The handles a history issued were all fresh with respect to the
      starting table `h` and are strictly increasing. */
  ghost predicate FreshHandles<F>(h: Handles<F>, final: Handles<F>, issued: seq<nat>) {
    && (forall k :: 0 <= k < |issued| ==> h.nextFh <= issued[k] < final.nextFh)
    && (forall k :: 0 <= k < |issued| ==> issued[k] !in h.openFiles)
    && (forall k, l :: 0 <= k < l < |issued| ==> issued[k] < issued[l])
  }

  /** Handles are never reused: across any history of opens and releases,
      the issued handles strictly increase, start at the counter's value,
      stay below the final counter, and none collides with a handle that
      was live at the start. */
  lemma {:induction false} IssuedHandlesAreFresh<F>(h: Handles<F>, ops: seq<Op<F>>)
    requires Valid(h)
    ensures FreshHandles(h, Run(h, ops).0, Run(h, ops).1)
    decreases |ops|
  {
    if ops != [] {
      match ops[0]
      case Open(f) =>
        var (h1, fh) := Insert(h, f);
        IssuedHandlesAreFresh(h1, ops[1..]);
        var (h2, rest) := Run(h1, ops[1..]);
        assert Run(h, ops) == (h2, [fh] + rest);
        assert h1.nextFh <= h2.nextFh;
      case Release(fh) =>
        var h1 := Remove(h, fh);
        IssuedHandlesAreFresh(h1, ops[1..]);
        assert Run(h, ops) == Run(h1, ops[1..]);
    }
  }
}

=== FILE: inode_table.dfy ===
/** The identity table of the passthrough filesystem: `inode_to_path`,
    `path_to_inode` and the `next_inode` counter, as one immutable value.
    The operations are the table bookkeeping of src/main.rs: `new`,
    `get_path`, `get_or_create_inode`, the forget step of unlink/rmdir and
    the move step of rename. */
module InodeTable {
  import opened Types
  import opened Paths

  /** The inode reserved for the mirrored root. */
  const ROOT_INO: nat := 1

  datatype Table = Table(inodeToPath: map<nat, Path>, pathToInode: map<Path, nat>, nextInode: nat)

  /** The invariant every operation keeps: the root is interned as inode 1,
      every allocated inode lies in [1, nextInode), and every interned path
      resolves back to itself through its inode. */
  ghost predicate Coherent(t: Table) {
    && ROOT_INO in t.inodeToPath && t.inodeToPath[ROOT_INO] == ROOT_PATH
    && ROOT_PATH in t.pathToInode && t.pathToInode[ROOT_PATH] == ROOT_INO
    && (forall i :: i in t.inodeToPath ==> ROOT_INO <= i < t.nextInode)
    && (forall p :: p in t.pathToInode ==>
          t.pathToInode[p] in t.inodeToPath && t.inodeToPath[t.pathToInode[p]] == p)
  }

  /** The two maps are exact inverses of each other. */
  ghost predicate Bijective(t: Table) {
    && Coherent(t)
    && (forall i :: i in t.inodeToPath ==>
          t.inodeToPath[i] in t.pathToInode && t.pathToInode[t.inodeToPath[i]] == i)
  }

  /** Every entry of `t` is still present, unchanged, in `u`. */
  ghost predicate Extends(t: Table, u: Table) {
    && (forall p :: p in t.pathToInode ==> p in u.pathToInode && u.pathToInode[p] == t.pathToInode[p])
    && (forall i :: i in t.inodeToPath ==> i in u.inodeToPath && u.inodeToPath[i] == t.inodeToPath[i])
    && t.nextInode <= u.nextInode
  }

  /** Growing a table twice only grows it. */
  lemma ExtendsTransitive(t: Table, u: Table, v: Table)
    requires Extends(t, u) && Extends(u, v)
    ensures Extends(t, v)
  {
  }

  /** Inode numbers are not reused from `t` to `u`: the counter never goes
      down, and every inode `u` knows that `t` did not is at or above `t`'s
      counter, so an inode `t` had handed out and dropped never returns. */
  ghost predicate NoReuse(t: Table, u: Table) {
    && t.nextInode <= u.nextInode
    && forall i :: i in u.inodeToPath && i !in t.inodeToPath ==> t.nextInode <= i
  }

  lemma NoReuseTransitive(t: Table, u: Table, v: Table)
    ensures NoReuse(t, u) && NoReuse(u, v) ==> NoReuse(t, v)
  {
  }

  /** `PassthroughFS::new`: only the root is known, the next inode is 2. */
  function Init(): (t: Table)
    ensures Bijective(t)
    ensures t.inodeToPath.Keys == {ROOT_INO} && t.pathToInode.Keys == {ROOT_PATH}
    ensures GetPath(t, ROOT_INO) == Some(ROOT_PATH)
    ensures t.nextInode == 2
  {
    Table(map[ROOT_INO := ROOT_PATH], map[ROOT_PATH := ROOT_INO], 2)
  }

  /** `get_path`: resolve an inode; a pure lookup. */
  function GetPath(t: Table, ino: nat): (r: Option<Path>)
    ensures r.Some? <==> ino in t.inodeToPath
    ensures r.Some? ==> r.value == t.inodeToPath[ino]
    ensures Coherent(t) && ino == ROOT_INO ==> r == Some(ROOT_PATH)
    ensures Bijective(t) && r.Some? ==> r.value in t.pathToInode && t.pathToInode[r.value] == ino
  {
    if ino in t.inodeToPath then Some(t.inodeToPath[ino]) else None
  }

  /** `get_or_create_inode`: a known path keeps its inode and the table is
      unchanged; an unknown path receives the counter's value, the counter
      advances, and exactly that pair is added to both maps. */
  function Intern(t: Table, p: Path): (r: (Table, nat))
    ensures p in t.pathToInode ==> r == (t, t.pathToInode[p])
    ensures p !in t.pathToInode ==>
      && r.1 == t.nextInode
      && r.0.nextInode == t.nextInode + 1
      && r.0.pathToInode == t.pathToInode[p := r.1]
      && r.0.inodeToPath == t.inodeToPath[r.1 := p]
    ensures Coherent(t) ==> Extends(t, r.0) && Coherent(r.0) && GetPath(r.0, r.1) == Some(p)
    ensures Coherent(t) && p !in t.pathToInode ==> r.1 !in t.inodeToPath
    ensures Bijective(t) ==> Bijective(r.0)
    ensures NoReuse(t, r.0)
  {
    if p in t.pathToInode then
      (t, t.pathToInode[p])
    else
      var ino := t.nextInode;
      (Table(t.inodeToPath[ino := p], t.pathToInode[p := ino], ino + 1), ino)
  }

  /** The forget step after a successful unlink/rmdir: the exact path and
      its inode leave both maps, nothing else is touched (in particular not
      the entries of paths below a removed directory). */
  function Forget(t: Table, p: Path): (r: Table)
    ensures p !in r.pathToInode
    ensures p !in t.pathToInode ==> r == t
    ensures p in t.pathToInode ==> t.pathToInode[p] !in r.inodeToPath
    ensures r.pathToInode.Keys == t.pathToInode.Keys - {p}
    ensures forall q :: q in r.pathToInode ==> r.pathToInode[q] == t.pathToInode[q]
    ensures forall i :: i in t.inodeToPath && (p !in t.pathToInode || i != t.pathToInode[p]) ==>
      i in r.inodeToPath && r.inodeToPath[i] == t.inodeToPath[i]
    ensures forall i :: i in r.inodeToPath ==> i in t.inodeToPath
    ensures r.nextInode == t.nextInode
    ensures Coherent(t) && p != ROOT_PATH ==> Coherent(r)
    ensures Bijective(t) && p != ROOT_PATH ==> Bijective(r)
    ensures NoReuse(t, r)
  {
    if p in t.pathToInode then
      var ino := t.pathToInode[p];
      Table(t.inodeToPath - {ino}, t.pathToInode - {p}, t.nextInode)
    else
      t
  }

  /** The move step after a successful host rename. When `src` is interned
      with inode i: `src` leaves the path map, `dst` maps to i and i maps to
      `dst`; every other entry keeps its value, including an inode that
      `dst` had before, which therefore still resolves to `dst`. An unknown
      `src` leaves the table unchanged. */
  function Move(t: Table, src: Path, dst: Path): (r: Table)
    ensures src !in t.pathToInode ==> r == t
    ensures src in t.pathToInode ==>
      var i := t.pathToInode[src];
      && (src != dst ==> src !in r.pathToInode)
      && dst in r.pathToInode && r.pathToInode[dst] == i
      && i in r.inodeToPath && r.inodeToPath[i] == dst
    ensures src in t.pathToInode ==> r.pathToInode.Keys == t.pathToInode.Keys - {src} + {dst}
    ensures forall q :: q in t.pathToInode && q != src && q != dst ==>
      q in r.pathToInode && r.pathToInode[q] == t.pathToInode[q]
    ensures forall i :: i in t.inodeToPath && (src !in t.pathToInode || i != t.pathToInode[src]) ==>
      i in r.inodeToPath && r.inodeToPath[i] == t.inodeToPath[i]
    ensures r.nextInode == t.nextInode
    ensures Coherent(t) ==> r.inodeToPath.Keys == t.inodeToPath.Keys
    ensures Coherent(t) && src != ROOT_PATH && dst != ROOT_PATH ==> Coherent(r)
    ensures (Bijective(t) && src != ROOT_PATH && dst != ROOT_PATH
             && (dst !in t.pathToInode || dst == src)) ==> Bijective(r)
    ensures Coherent(t) ==> NoReuse(t, r)
  {
    if src in t.pathToInode then
      var ino := t.pathToInode[src];
      Table(t.inodeToPath[ino := dst], (t.pathToInode - {src})[dst := ino], t.nextInode)
    else
      t
  }

  /** Interning is idempotent: a second call with the same path returns the
      same inode and changes nothing. */
  lemma InternIdempotent(t: Table, p: Path)
    ensures var (u, i) := Intern(t, p); Intern(u, p) == (u, i)
  {
  }

  /** Under the bijection, interning the path of a known inode gives that
      inode back, and distinct inodes resolve to distinct paths. */
  lemma ResolveThenIntern(t: Table, i: nat, j: nat)
    requires Bijective(t)
    requires i in t.inodeToPath && j in t.inodeToPath
    ensures Intern(t, t.inodeToPath[i]) == (t, i)
    ensures i != j ==> t.inodeToPath[i] != t.inodeToPath[j]
  {
  }

  /** Under the weaker invariant the path map is still injective. */
  lemma CoherentPathMapInjective(t: Table, p: Path, q: Path)
    requires Coherent(t)
    requires p in t.pathToInode && q in t.pathToInode && p != q
    ensures t.pathToInode[p] != t.pathToInode[q]
  {
  }

  /** Renaming onto a distinct, already interned target breaks the
      bijection: the target's former inode keeps resolving to `dst`, while
      `dst` now names the moved inode. */
  lemma MoveOntoInternedTargetLeavesStaleInode(t: Table, src: Path, dst: Path)
    requires Bijective(t)
    requires src in t.pathToInode && dst in t.pathToInode && src != dst
    ensures var r := Move(t, src, dst); var j := t.pathToInode[dst];
      && j in r.inodeToPath && r.inodeToPath[j] == dst
      && r.pathToInode[dst] != j
      && !Bijective(r)
  {
    var r := Move(t, src, dst);
    var j := t.pathToInode[dst];
    assert j != t.pathToInode[src];
    assert r.inodeToPath[j] == dst && r.pathToInode[r.inodeToPath[j]] != j;
  }

  /** A concrete instance: with `a` and `b` both interned, renaming `a`
      onto `b` leaves inode 3 (formerly `b`) resolving to `b`, which now
      belongs to inode 2. */
  lemma StaleInodeExample()
    ensures var t0 := Intern(Intern(Init(), ["a"]).0, ["b"]).0;
      var t1 := Move(t0, ["a"], ["b"]);
      && Bijective(t0)
      && GetPath(t1, 2) == Some(["b"]) && GetPath(t1, 3) == Some(["b"])
      && !Bijective(t1)
  {
    var t0 := Intern(Intern(Init(), ["a"]).0, ["b"]).0;
    assert t0.pathToInode[["a"]] == 2 && t0.pathToInode[["b"]] == 3;
    MoveOntoInternedTargetLeavesStaleInode(t0, ["a"], ["b"]);
  }
}

=== FILE: open_flags.dfy ===
/** Decoding of the kernel's open flags into host open options, and the
    uid/gid defaulting of setattr. Flag values are the Linux ones; a flag
    word is the bit pattern of the `i32` the kernel passes. */
module OpenFlags {
  import opened Types

  const O_ACCMODE: bv32 := 3
  const O_RDONLY: bv32 := 0
  const O_WRONLY: bv32 := 1
  const O_RDWR: bv32 := 2
  const O_TRUNC: bv32 := 0x200
  const O_APPEND: bv32 := 0x400

  /** The `std::fs::OpenOptions` the callbacks configure. */
  datatype OpenOptions = OpenOptions(read: bool, write: bool, append: bool, create: bool, truncate: bool)

  /** Read access is requested when the access mode is O_RDONLY or O_RDWR. */
  predicate WantsRead(flags: bv32)
  {
    flags & O_ACCMODE == O_RDONLY || flags & O_ACCMODE == O_RDWR
  }

  /** Write access is requested when the access mode is O_WRONLY or O_RDWR. */
  predicate WantsWrite(flags: bv32)
  {
    flags & O_ACCMODE == O_WRONLY || flags & O_ACCMODE == O_RDWR
  }

  /** The access-mode decoding read bit by bit: read is wanted exactly when
      the low bit is clear, write exactly when the two low bits differ, both
      exactly for O_RDWR, and neither exactly for the unused mode 3. Bits
      outside O_ACCMODE play no part. */
  lemma AccessModeBits(flags: bv32)
    ensures WantsRead(flags) <==> flags & 1 == 0
    ensures WantsWrite(flags) <==> (flags & 1 == 0) != (flags & 2 == 0)
    ensures WantsRead(flags) && WantsWrite(flags) <==> flags & O_ACCMODE == O_RDWR
    ensures !WantsRead(flags) && !WantsWrite(flags) <==> flags & O_ACCMODE == 3
    ensures WantsRead(flags) == WantsRead(flags & O_ACCMODE)
    ensures WantsWrite(flags) == WantsWrite(flags & O_ACCMODE)
  {
  }

  /** The validation `std::fs::OpenOptions::open` performs on Unix before
      any system call: some access must be asked for (append counts as
      write access); creating or truncating needs write or append access;
      truncating cannot be combined with append. Options it refuses fail
      with EINVAL and never reach the host. */
  predicate StdAccepts(o: OpenOptions)
  {
    && (o.read || o.write || o.append)
    && (o.write || o.append || (!o.create && !o.truncate))
    && (!o.append || !o.truncate)
  }

  /** The options of `open`: access per the access mode, append iff
      O_APPEND is set, never create or truncate. The standard library
      refuses them exactly for access mode 3 without O_APPEND. */
  function OpenOptionsForOpen(flags: bv32): (o: OpenOptions)
    ensures o.read <==> flags & 1 == 0
    ensures o.write <==> (flags & 1 == 0) != (flags & 2 == 0)
    ensures o.append <==> flags & O_APPEND != 0
    ensures !o.create && !o.truncate
    ensures StdAccepts(o) <==> flags & O_ACCMODE != 3 || flags & O_APPEND != 0
  {
    AccessModeBits(flags);
    OpenOptions(WantsRead(flags), WantsWrite(flags), flags & O_APPEND != 0, false, false)
  }

  /** The options of `create`: access per the access mode, always create,
      truncate iff O_TRUNC is set, never append (O_APPEND is ignored). The
      standard library refuses them exactly when write access is not asked
      for, that is for O_RDONLY and for access mode 3. */
  function OpenOptionsForCreate(flags: bv32): (o: OpenOptions)
    ensures o.read <==> flags & 1 == 0
    ensures o.write <==> (flags & 1 == 0) != (flags & 2 == 0)
    ensures o.create && !o.append
    ensures o.truncate <==> flags & O_TRUNC != 0
    ensures StdAccepts(o) <==> WantsWrite(flags)
  {
    AccessModeBits(flags);
    OpenOptions(WantsRead(flags), WantsWrite(flags), false, true, flags & O_TRUNC != 0)
  }

  /** setattr's ownership change: no chown at all unless a uid or a gid is
      given; a missing one is passed as `u32::MAX` (leave unchanged), a given
      one is passed through. */
  function ChownArgs(uid: Option<u32>, gid: Option<u32>): (r: Option<(u32, u32)>)
    ensures r.None? <==> uid.None? && gid.None?
    ensures r.Some? ==> r.value.0 == (if uid.Some? then uid.value else U32_MAX)
    ensures r.Some? ==> r.value.1 == (if gid.Some? then gid.value else U32_MAX)
  {
    if uid.Some? || gid.Some? then
      Some((if uid.Some? then uid.value else U32_MAX, if gid.Some? then gid.value else U32_MAX))
    else
      None
  }

  /** What chown(2) does with one id argument: `u32::MAX` (that is, -1)
      leaves the current id in place, any other value replaces it. */
  function ChownApply(current: u32, arg: u32): u32
  {
    if arg == U32_MAX then current else arg
  }

  /** A note on host semantics rather than program code, read through
      `ChownApply`: the ownership setattr leaves behind when the chown call
      succeeds. A given id replaces the current one and a missing id keeps
      it, so the `u32::MAX` default never changes an owner. */
  lemma ChownKeepsMissingIds(uid: Option<u32>, gid: Option<u32>, owner: u32, group: u32)
    requires uid.Some? || gid.Some?
    ensures var (u, g) := ChownArgs(uid, gid).value;
      && ChownApply(owner, u) == (if uid.Some? then ChownApply(owner, uid.value) else owner)
      && ChownApply(group, g) == (if gid.Some? then ChownApply(group, gid.value) else group)
  {
  }
}

=== FILE: passthrough.dfy ===
/** The protocol callbacks of the passthrough filesystem (`impl Filesystem
    for PassthroughFS` in src/main.rs), each as a pure transition of the
    two tables. What the host filesystem answers is an argument; what the
    callback asks of the host is returned, in order, as `calls`. Paths are
    relative to the mirrored root. */
module Passthrough {
  import opened Types
  import opened Paths
  import opened Attr
  import opened OpenFlags
  import opened Readdir
  import InodeTable
  import HandleTable

  /** Linux error numbers. */
  const ENOENT: nat := 2
  const EEXIST: nat := 17
  const ENOSYS: nat := 38

  /** The session state: identity table and handle table. */
  datatype FS<F> = FS(inodes: InodeTable.Table, handles: HandleTable.Handles<F>)

  /** A request the callbacks issue to the host filesystem. */
  datatype HostCall =
    | Stat(path: Path)
    | StatNoFollow(path: Path)
    | OpenFile(path: Path, options: OpenOptions)
    | SetLen(path: Path, size: u64)
    | SetPermissions(path: Path, mode: bv32)
    | Chown(path: Path, uid: u32, gid: u32)
    | Seek(fh: nat, pos: u64)
    | ReadBytes(fh: nat, len: u32)
    | WriteBytes(fh: nat, data: seq<byte>)
    | ListDir(path: Path)
    | EntryMetadata(path: Path)
    | CreateDir(path: Path)
    | RemoveFile(path: Path)
    | RemoveDir(path: Path)
    | RenamePath(src: Path, dst: Path)
    | Exists(path: Path)
    | ReadLink(path: Path)
    | MakeSymlink(target: seq<byte>, link: Path)
    | SyncAll(fh: nat)

  /** The reply a callback sends to the kernel. */
  datatype Reply =
    | Entry(attr: FileAttr)
    | Attributes(attr: FileAttr)
    | Data(bytes: seq<byte>)
    | Written(count: u32)
    | Opened(fh: nat)
    | Created(attr: FileAttr, fh: nat)
    | DirEntries(entries: seq<Emitted>)
    | Ok
    | FsStats(blocks: nat, bfree: nat, bavail: nat, files: nat, ffree: nat, bsize: nat, namelen: nat, frsize: nat)
    | Error(errno: nat)

  /** The result of one callback: the new state, the host calls issued, the reply. */
  datatype Outcome<F> = Outcome(fs: FS<F>, calls: seq<HostCall>, reply: Reply)

  /** The invariant of a session: the identity table is coherent and every
      live handle was issued. */
  ghost predicate Consistent<F>(fs: FS<F>) {
    InodeTable.Coherent(fs.inodes) && HandleTable.Valid(fs.handles)
  }

  /** The options setattr opens a file with before truncating it. */
  const WRITE_ONLY: OpenOptions := OpenOptions(false, true, false, false, false)

  /** The reply to an unresolvable inode or handle: ENOENT, with no host
      call and no change. */
  ghost predicate Refused<F>(fs: FS<F>, r: Outcome<F>) {
    r == Outcome(fs, [], Error(ENOENT))
  }

  /** `PassthroughFS::new`. */
  function New<F>(): (fs: FS<F>)
    ensures Consistent(fs) && InodeTable.Bijective(fs.inodes)
    ensures InodeTable.GetPath(fs.inodes, InodeTable.ROOT_INO) == Some(ROOT_PATH)
    ensures fs.inodes.inodeToPath.Keys == {InodeTable.ROOT_INO} && fs.inodes.nextInode == 2
    ensures fs.handles.openFiles == map[] && fs.handles.nextFh == 1
  {
    FS(InodeTable.Init(), HandleTable.Init())
  }

  /** lookup: stat the child; on success intern it and reply its entry. */
  function Lookup<F>(fs: FS<F>, parent: nat, name: Name, stat: Option<Metadata>): (r: Outcome<F>)
    ensures InodeTable.GetPath(fs.inodes, parent).None? ==> Refused(fs, r)
    ensures InodeTable.GetPath(fs.inodes, parent).Some? ==>
      var p := Join(InodeTable.GetPath(fs.inodes, parent).value, name);
      && r.calls == [Stat(p)]
      && (stat.None? ==> r.fs == fs && r.reply == Error(ENOENT))
      && (stat.Some? ==>
            && r.fs.inodes == InodeTable.Intern(fs.inodes, p).0
            && r.reply == Entry(MetadataToAttr(stat.value, InodeTable.Intern(fs.inodes, p).1))
            && (InodeTable.Coherent(fs.inodes) ==>
                  InodeTable.GetPath(r.fs.inodes, r.reply.attr.ino) == Some(p)))
    ensures r.fs.handles == fs.handles
    ensures Consistent(fs) ==> Consistent(r.fs)
    ensures InodeTable.Bijective(fs.inodes) ==> InodeTable.Bijective(r.fs.inodes)
  {
    match InodeTable.GetPath(fs.inodes, parent)
    case None => Outcome(fs, [], Error(ENOENT))
    case Some(dir) =>
      var p := Join(dir, name);
      match stat
      case None => Outcome(fs, [Stat(p)], Error(ENOENT))
      case Some(m) =>
        var (t, ino) := InodeTable.Intern(fs.inodes, p);
        Outcome(fs.(inodes := t), [Stat(p)], Entry(MetadataToAttr(m, ino)))
  }

  /** getattr: stat the inode's path and reply its attributes under the
      inode asked for. */
  function GetAttr<F>(fs: FS<F>, ino: nat, stat: Option<Metadata>): (r: Outcome<F>)
    ensures r.fs == fs
    ensures InodeTable.GetPath(fs.inodes, ino).None? ==> Refused(fs, r)
    ensures InodeTable.GetPath(fs.inodes, ino).Some? ==>
      && r.calls == [Stat(InodeTable.GetPath(fs.inodes, ino).value)]
      && (stat.None? ==> r.reply == Error(ENOENT))
      && (stat.Some? ==> r.reply == Attributes(MetadataToAttr(stat.value, ino)))
  {
    match InodeTable.GetPath(fs.inodes, ino)
    case None => Outcome(fs, [], Error(ENOENT))
    case Some(p) =>
      match stat
      case None => Outcome(fs, [Stat(p)], Error(ENOENT))
      case Some(m) => Outcome(fs, [Stat(p)], Attributes(MetadataToAttr(m, ino)))
  }

  /** Position of a setattr sub-step in the fixed order truncate (open,
      then set the length), chmod, chown. */
  function StepRank(c: HostCall): nat {
    match c
    case OpenFile(_, _) => 0
    case SetLen(_, _) => 1
    case SetPermissions(_, _) => 2
    case Chown(_, _, _) => 3
    case _ => 4
  }

  /** A call setattr may issue on `p` before its final stat: the
      truncation's open or set_len, chmod or chown, all on `p`. */
  predicate IsSetAttrStep(c: HostCall, p: Path) {
    (c.OpenFile? || c.SetLen? || c.SetPermissions? || c.Chown?) && c.path == p
  }

  /** The calls' ranks strictly ascend and lie in [lo, hi). */
  predicate RanksAscendWithin(s: seq<HostCall>, lo: nat, hi: nat) {
    && (forall i :: 0 <= i < |s| ==> lo <= StepRank(s[i]) < hi)
    && (forall i, j :: 0 <= i < j < |s| ==> StepRank(s[i]) < StepRank(s[j]))
  }

  lemma RanksAscendConcat(a: seq<HostCall>, b: seq<HostCall>, lo: nat, mid: nat, hi: nat)
    requires lo <= mid <= hi
    requires RanksAscendWithin(a, lo, mid) && RanksAscendWithin(b, mid, hi)
    ensures RanksAscendWithin(a + b, lo, hi)
  {
    forall i | 0 <= i < |a + b|
      ensures lo <= StepRank((a + b)[i]) < hi
    {
      if i < |a| {
        assert (a + b)[i] == a[i];
      } else {
        assert (a + b)[i] == b[i - |a|];
      }
    }
    forall i, j | 0 <= i < j < |a + b|
      ensures StepRank((a + b)[i]) < StepRank((a + b)[j])
    {
      if j < |a| {
        assert (a + b)[i] == a[i] && (a + b)[j] == a[j];
      } else if i < |a| {
        assert (a + b)[i] == a[i] && (a + b)[j] == b[j - |a|];
      } else {
        assert (a + b)[i] == b[i - |a|] && (a + b)[j] == b[j - |a|];
      }
    }
  }

  /** setattr's truncation: open the file for writing, and set its length
      only if that open worked. */
  function TruncateSteps(p: Path, size: Option<u64>, truncOpened: bool): (s: seq<HostCall>)
    ensures forall c :: c in s <==>
      size.Some? && (c == OpenFile(p, WRITE_ONLY) || (truncOpened && c == SetLen(p, size.value)))
    ensures RanksAscendWithin(s, 0, 2)
    ensures forall c :: c in s ==> IsSetAttrStep(c, p)
  {
    if size.Some? then [OpenFile(p, WRITE_ONLY)] + (if truncOpened then [SetLen(p, size.value)] else []) else []
  }

  /** setattr's permission change, issued only for a given mode. */
  function ChmodSteps(p: Path, mode: Option<bv32>): (s: seq<HostCall>)
    ensures forall c :: c in s <==> mode.Some? && c == SetPermissions(p, mode.value)
    ensures RanksAscendWithin(s, 2, 3)
    ensures forall c :: c in s ==> IsSetAttrStep(c, p)
  {
    if mode.Some? then [SetPermissions(p, mode.value)] else []
  }

  /** setattr's ownership change, issued only when a uid or a gid is given. */
  function ChownSteps(p: Path, uid: Option<u32>, gid: Option<u32>): (s: seq<HostCall>)
    ensures forall c :: c in s <==>
      (ChownArgs(uid, gid).Some? && c == Chown(p, ChownArgs(uid, gid).value.0, ChownArgs(uid, gid).value.1))
    ensures RanksAscendWithin(s, 3, 4)
    ensures forall c :: c in s ==> IsSetAttrStep(c, p)
  {
    match ChownArgs(uid, gid)
    case Some(ids) => [Chown(p, ids.0, ids.1)]
    case None => []
  }

  /** The best-effort sub-steps of setattr, in order: truncation,
      permission change, ownership change. Each is issued for exactly the
      fields given, chown only when a uid or a gid is given; their failures
      are not observed. */
  function SetAttrSteps(p: Path, mode: Option<bv32>, uid: Option<u32>, gid: Option<u32>,
                        size: Option<u64>, truncOpened: bool): (s: seq<HostCall>)
    ensures OpenFile(p, WRITE_ONLY) in s <==> size.Some?
    ensures forall n: u64 :: SetLen(p, n) in s <==> size == Some(n) && truncOpened
    ensures forall m :: SetPermissions(p, m) in s <==> mode == Some(m)
    ensures forall u: u32, g: u32 :: Chown(p, u, g) in s <==> ChownArgs(uid, gid) == Some((u, g))
    ensures Stat(p) !in s
    ensures forall c :: c in s ==> IsSetAttrStep(c, p)
  {
    var truncate := TruncateSteps(p, size, truncOpened);
    var chmod := ChmodSteps(p, mode);
    var chown := ChownSteps(p, uid, gid);
    assert forall c :: c in truncate + chmod + chown <==> c in truncate || c in chmod || c in chown;
    truncate + chmod + chown
  }

  /** setattr's sub-steps come in the fixed order: open, set length,
      chmod, chown. */
  lemma SetAttrStepsInOrder(p: Path, mode: Option<bv32>, uid: Option<u32>, gid: Option<u32>,
                            size: Option<u64>, truncOpened: bool)
    ensures var s := SetAttrSteps(p, mode, uid, gid, size, truncOpened);
      forall i, j :: 0 <= i < j < |s| ==> StepRank(s[i]) < StepRank(s[j])
  {
    var truncate := TruncateSteps(p, size, truncOpened);
    var chmod := ChmodSteps(p, mode);
    RanksAscendConcat(truncate, chmod, 0, 2, 3);
    RanksAscendConcat(truncate + chmod, ChownSteps(p, uid, gid), 0, 3, 4);
  }

  /** setattr: the sub-steps for the fields given, then a final stat whose
      outcome alone decides the reply. */
  function SetAttr<F>(fs: FS<F>, ino: nat, mode: Option<bv32>, uid: Option<u32>, gid: Option<u32>,
                      size: Option<u64>, truncOpened: bool, stat: Option<Metadata>): (r: Outcome<F>)
    ensures r.fs == fs
    ensures InodeTable.GetPath(fs.inodes, ino).None? ==> Refused(fs, r)
    ensures InodeTable.GetPath(fs.inodes, ino).Some? ==>
      var p := InodeTable.GetPath(fs.inodes, ino).value;
      && r.calls == SetAttrSteps(p, mode, uid, gid, size, truncOpened) + [Stat(p)]
      && (stat.None? ==> r.reply == Error(ENOENT))
      && (stat.Some? ==> r.reply == Attributes(MetadataToAttr(stat.value, ino)))
  {
    match InodeTable.GetPath(fs.inodes, ino)
    case None => Outcome(fs, [], Error(ENOENT))
    case Some(p) =>
      var calls := SetAttrSteps(p, mode, uid, gid, size, truncOpened) + [Stat(p)];
      match stat
      case None => Outcome(fs, calls, Error(ENOENT))
      case Some(m) => Outcome(fs, calls, Attributes(MetadataToAttr(m, ino)))
  }

  /** What the host read placed at the start of the buffer is never more
      than the buffer holds (the `std::io::Read` guarantee). */
  predicate ReadFitsBuffer(size: u32, read: Option<seq<byte>>)
  {
    read.Some? ==> |read.value| <= size
  }

  /** read: on an open handle, seek to the offset (reinterpreted as
      unsigned) and read into a zeroed buffer of `size` bytes; reply the
      bytes read. Any failure, including an unknown handle, is ENOENT. */
  function Read<F>(fs: FS<F>, fh: nat, offset: i64, size: u32, seekOk: bool, read: Option<seq<byte>>): (r: Outcome<F>)
    requires ReadFitsBuffer(size, read)
    ensures r.fs == fs
    ensures fh !in fs.handles.openFiles ==> Refused(fs, r)
    ensures r.reply.Data? <==> fh in fs.handles.openFiles && seekOk && read.Some?
    ensures r.reply.Data? ==> r.reply.bytes == read.value && |r.reply.bytes| <= size
    ensures !r.reply.Data? ==> r.reply == Error(ENOENT)
    ensures fh in fs.handles.openFiles ==>
      r.calls == [Seek(fh, AsU64(offset))] + (if seekOk then [ReadBytes(fh, size)] else [])
  {
    match HandleTable.Get(fs.handles, fh)
    case None => Outcome(fs, [], Error(ENOENT))
    case Some(_) =>
      var seek := [Seek(fh, AsU64(offset))];
      if !seekOk then Outcome(fs, seek, Error(ENOENT))
      else
        var calls := seek + [ReadBytes(fh, size)];
        match read
        case None => Outcome(fs, calls, Error(ENOENT))
        case Some(got) =>
          var buffer := got + seq(size - |got|, _ => 0);
          Outcome(fs, calls, Data(buffer[..|got|]))
  }

  /** write: on an open handle, seek and write; reply the count written,
      narrowed to 32 bits. Any failure, including an unknown handle, is
      ENOENT. */
  function Write<F>(fs: FS<F>, fh: nat, offset: i64, data: seq<byte>, seekOk: bool, written: Option<u64>): (r: Outcome<F>)
    ensures r.fs == fs
    ensures fh !in fs.handles.openFiles ==> Refused(fs, r)
    ensures r.reply.Written? <==> fh in fs.handles.openFiles && seekOk && written.Some?
    ensures r.reply.Written? ==> r.reply.count == Trunc32(written.value)
    ensures !r.reply.Written? ==> r.reply == Error(ENOENT)
    ensures fh in fs.handles.openFiles ==>
      r.calls == [Seek(fh, AsU64(offset))] + (if seekOk then [WriteBytes(fh, data)] else [])
  {
    match HandleTable.Get(fs.handles, fh)
    case None => Outcome(fs, [], Error(ENOENT))
    case Some(_) =>
      var seek := [Seek(fh, AsU64(offset))];
      if !seekOk then Outcome(fs, seek, Error(ENOENT))
      else
        var calls := seek + [WriteBytes(fh, data)];
        match written
        case None => Outcome(fs, calls, Error(ENOENT))
        case Some(n) => Outcome(fs, calls, Written(Trunc32(n)))
  }

  /** The metadata query readdir makes for each child it enumerated, in
      order (a directory entry's metadata, which does not follow a symlink). */
  function EntryQueries(dir: Path, cs: seq<Child>): (q: seq<HostCall>)
    ensures |q| == |cs|
    ensures forall k :: 0 <= k < |cs| ==> q[k] == EntryMetadata(Join(dir, cs[k].name))
  {
    seq(|cs|, k requires 0 <= k < |cs| => EntryMetadata(Join(dir, cs[k].name)))
  }

  /** readdir: list the directory, intern every readable child and query its
      metadata, and reply the page of `. + .. + children` that starts at
      `offset` and fits a buffer of `capacity` bytes; an offset past the end
      replies no entries. */
  function ReadDir<F>(fs: FS<F>, ino: nat, offset: i64, capacity: nat,
                      listing: Option<seq<Option<Child>>>): (r: Outcome<F>)
    ensures InodeTable.GetPath(fs.inodes, ino).None? ==> Refused(fs, r)
    ensures InodeTable.GetPath(fs.inodes, ino).Some? ==>
      var dir := InodeTable.GetPath(fs.inodes, ino).value;
      && (listing.None? ==> r == Outcome(fs, [ListDir(dir)], Error(ENOENT)))
      && (listing.Some? ==>
            var cs := Flatten(listing.value);
            var (t, all) := Listing(fs.inodes, ino, dir, cs);
            && r.calls == [ListDir(dir)] + EntryQueries(dir, cs)
            && r.fs.inodes == t
            && r.reply == DirEntries(Page(all, AsU64(offset), capacity)))
    ensures r.fs.handles == fs.handles
    ensures Consistent(fs) ==> Consistent(r.fs)
    ensures InodeTable.Bijective(fs.inodes) ==> InodeTable.Bijective(r.fs.inodes)
  {
    match InodeTable.GetPath(fs.inodes, ino)
    case None => Outcome(fs, [], Error(ENOENT))
    case Some(dir) =>
      match listing
      case None => Outcome(fs, [ListDir(dir)], Error(ENOENT))
      case Some(items) =>
        var cs := Flatten(items);
        var (t, all) := Listing(fs.inodes, ino, dir, cs);
        Outcome(fs.(inodes := t), [ListDir(dir)] + EntryQueries(dir, cs),
                DirEntries(Page(all, AsU64(offset), capacity)))
  }

  /** open: open the inode's path with the options the flags decode to; on
      success store the file under a fresh handle. Options the standard
      library refuses fail before any host call. */
  function Open<F>(fs: FS<F>, ino: nat, flags: bv32, hostFile: Option<F>): (r: Outcome<F>)
    ensures InodeTable.GetPath(fs.inodes, ino).None? ==> Refused(fs, r)
    ensures !StdAccepts(OpenOptionsForOpen(flags)) ==> Refused(fs, r)
    ensures InodeTable.GetPath(fs.inodes, ino).Some? && StdAccepts(OpenOptionsForOpen(flags)) ==>
      r.calls == [OpenFile(InodeTable.GetPath(fs.inodes, ino).value, OpenOptionsForOpen(flags))]
    ensures r.reply.Opened? <==>
      InodeTable.GetPath(fs.inodes, ino).Some? && StdAccepts(OpenOptionsForOpen(flags)) && hostFile.Some?
    ensures r.reply.Opened? ==>
      && r.reply.fh == fs.handles.nextFh
      && r.fs.handles == HandleTable.Insert(fs.handles, hostFile.value).0
      && HandleTable.Get(r.fs.handles, r.reply.fh) == Some(hostFile.value)
      && (HandleTable.Valid(fs.handles) ==> r.reply.fh !in fs.handles.openFiles)
    ensures !r.reply.Opened? ==> r.fs == fs && r.reply == Error(ENOENT)
    ensures r.fs.inodes == fs.inodes
    ensures Consistent(fs) ==> Consistent(r.fs)
  {
    match InodeTable.GetPath(fs.inodes, ino)
    case None => Outcome(fs, [], Error(ENOENT))
    case Some(p) =>
      var options := OpenOptionsForOpen(flags);
      if !StdAccepts(options) then Outcome(fs, [], Error(ENOENT))
      else
        var calls := [OpenFile(p, options)];
        match hostFile
        case None => Outcome(fs, calls, Error(ENOENT))
        case Some(f) =>
          var (h, fh) := HandleTable.Insert(fs.handles, f);
          Outcome(fs.(handles := h), calls, Opened(fh))
  }

  /** release: drop the handle, known or not, and reply ok. */
  function Release<F>(fs: FS<F>, fh: nat): (r: Outcome<F>)
    ensures r.reply == Ok && r.calls == []
    ensures r.fs.inodes == fs.inodes
    ensures HandleTable.Get(r.fs.handles, fh) == None
    ensures forall g :: g != fh ==> HandleTable.Get(r.fs.handles, g) == HandleTable.Get(fs.handles, g)
    ensures r.fs.handles.nextFh == fs.handles.nextFh
    ensures Consistent(fs) ==> Consistent(r.fs)
  {
    Outcome(fs.(handles := HandleTable.Remove(fs.handles, fh)), [], Ok)
  }

  /** create: open the child with create (and truncate per O_TRUNC), set its
      mode, intern it and store the file under a fresh handle, then stat it.
      Without write access the standard library refuses the options before
      any host call. A failing final stat replies ENOENT but keeps the new
      inode and the new handle. */
  function Create<F>(fs: FS<F>, parent: nat, name: Name, mode: bv32, flags: bv32,
                     hostFile: Option<F>, stat: Option<Metadata>): (r: Outcome<F>)
    ensures InodeTable.GetPath(fs.inodes, parent).None? ==> Refused(fs, r)
    ensures !WantsWrite(flags) ==> Refused(fs, r)
    ensures InodeTable.GetPath(fs.inodes, parent).Some? && WantsWrite(flags) ==>
      var p := Join(InodeTable.GetPath(fs.inodes, parent).value, name);
      && (hostFile.None? ==>
            r == Outcome(fs, [OpenFile(p, OpenOptionsForCreate(flags))], Error(ENOENT)))
      && (hostFile.Some? ==>
            && r.calls == [OpenFile(p, OpenOptionsForCreate(flags)), SetPermissions(p, mode), Stat(p)]
            && r.fs.inodes == InodeTable.Intern(fs.inodes, p).0
            && r.fs.handles == HandleTable.Insert(fs.handles, hostFile.value).0
            && (stat.None? ==> r.reply == Error(ENOENT))
            && (stat.Some? ==>
                  r.reply == Created(MetadataToAttr(stat.value, InodeTable.Intern(fs.inodes, p).1),
                                     fs.handles.nextFh)))
    ensures Consistent(fs) ==> Consistent(r.fs)
    ensures InodeTable.Bijective(fs.inodes) ==> InodeTable.Bijective(r.fs.inodes)
  {
    match InodeTable.GetPath(fs.inodes, parent)
    case None => Outcome(fs, [], Error(ENOENT))
    case Some(dir) =>
      var p := Join(dir, name);
      var options := OpenOptionsForCreate(flags);
      if !StdAccepts(options) then Outcome(fs, [], Error(ENOENT))
      else
        match hostFile
        case None => Outcome(fs, [OpenFile(p, options)], Error(ENOENT))
        case Some(f) =>
          var (t, ino) := InodeTable.Intern(fs.inodes, p);
          var (h, fh) := HandleTable.Insert(fs.handles, f);
          var calls := [OpenFile(p, options), SetPermissions(p, mode), Stat(p)];
          match stat
          case None => Outcome(FS(t, h), calls, Error(ENOENT))
          case Some(m) => Outcome(FS(t, h), calls, Created(MetadataToAttr(m, ino), fh))
  }

  /** mkdir: create the directory; any failure of that step is EEXIST. On
      success set its mode, intern it and reply its entry. */
  function Mkdir<F>(fs: FS<F>, parent: nat, name: Name, mode: bv32, made: bool,
                    stat: Option<Metadata>): (r: Outcome<F>)
    ensures InodeTable.GetPath(fs.inodes, parent).None? ==> Refused(fs, r)
    ensures InodeTable.GetPath(fs.inodes, parent).Some? ==>
      var p := Join(InodeTable.GetPath(fs.inodes, parent).value, name);
      && (!made ==> r == Outcome(fs, [CreateDir(p)], Error(EEXIST)))
      && (made ==>
            && r.calls == [CreateDir(p), SetPermissions(p, mode), Stat(p)]
            && r.fs.inodes == InodeTable.Intern(fs.inodes, p).0
            && (stat.None? ==> r.reply == Error(ENOENT))
            && (stat.Some? ==>
                  r.reply == Entry(MetadataToAttr(stat.value, InodeTable.Intern(fs.inodes, p).1))))
    ensures r.fs.handles == fs.handles
    ensures Consistent(fs) ==> Consistent(r.fs)
    ensures InodeTable.Bijective(fs.inodes) ==> InodeTable.Bijective(r.fs.inodes)
  {
    match InodeTable.GetPath(fs.inodes, parent)
    case None => Outcome(fs, [], Error(ENOENT))
    case Some(dir) =>
      var p := Join(dir, name);
      if !made then Outcome(fs, [CreateDir(p)], Error(EEXIST))
      else
        var (t, ino) := InodeTable.Intern(fs.inodes, p);
        var calls := [CreateDir(p), SetPermissions(p, mode), Stat(p)];
        match stat
        case None => Outcome(fs.(inodes := t), calls, Error(ENOENT))
        case Some(m) => Outcome(fs.(inodes := t), calls, Entry(MetadataToAttr(m, ino)))
  }

  /** The host call that removes `p`: remove_dir for rmdir, remove_file
      for unlink. */
  function Removal(p: Path, isDir: bool): HostCall {
    if isDir then RemoveDir(p) else RemoveFile(p)
  }

  /** The shared shape of unlink and rmdir: issue the removal of the joined
      path; on success forget exactly that path, on failure reply ENOENT. */
  function RemoveEntry<F>(fs: FS<F>, parent: nat, name: Name, isDir: bool, removed: bool): (r: Outcome<F>)
    ensures InodeTable.GetPath(fs.inodes, parent).None? ==> Refused(fs, r)
    ensures InodeTable.GetPath(fs.inodes, parent).Some? ==>
      var p := Join(InodeTable.GetPath(fs.inodes, parent).value, name);
      && r.calls == [Removal(p, isDir)]
      && (!removed ==> r.fs == fs && r.reply == Error(ENOENT))
      && (removed ==> r.reply == Ok && r.fs.inodes == InodeTable.Forget(fs.inodes, p))
    ensures r.fs.handles == fs.handles
    ensures Consistent(fs) ==> Consistent(r.fs)
    ensures InodeTable.Bijective(fs.inodes) ==> InodeTable.Bijective(r.fs.inodes)
  {
    match InodeTable.GetPath(fs.inodes, parent)
    case None => Outcome(fs, [], Error(ENOENT))
    case Some(dir) =>
      var p := Join(dir, name);
      if removed then Outcome(fs.(inodes := InodeTable.Forget(fs.inodes, p)), [Removal(p, isDir)], Ok)
      else Outcome(fs, [Removal(p, isDir)], Error(ENOENT))
  }

  /** unlink: remove the file; on success the joined path and its inode
      leave the identity table and nothing else does. */
  function Unlink<F>(fs: FS<F>, parent: nat, name: Name, removed: bool): (r: Outcome<F>)
    ensures InodeTable.GetPath(fs.inodes, parent).None? ==> Refused(fs, r)
    ensures InodeTable.GetPath(fs.inodes, parent).Some? ==>
      var p := Join(InodeTable.GetPath(fs.inodes, parent).value, name);
      && r.calls == [RemoveFile(p)]
      && (!removed ==> r.fs == fs && r.reply == Error(ENOENT))
      && (removed ==> r.reply == Ok && r.fs.inodes == InodeTable.Forget(fs.inodes, p))
    ensures r.fs.handles == fs.handles
    ensures Consistent(fs) ==> Consistent(r.fs)
    ensures InodeTable.Bijective(fs.inodes) ==> InodeTable.Bijective(r.fs.inodes)
  {
    RemoveEntry(fs, parent, name, false, removed)
  }

  /** rmdir: remove the (empty) directory; on success the joined path and
      its inode leave the identity table, entries below it stay. Any
      failure, "not empty" included, is ENOENT. */
  function Rmdir<F>(fs: FS<F>, parent: nat, name: Name, removed: bool): (r: Outcome<F>)
    ensures InodeTable.GetPath(fs.inodes, parent).None? ==> Refused(fs, r)
    ensures InodeTable.GetPath(fs.inodes, parent).Some? ==>
      var p := Join(InodeTable.GetPath(fs.inodes, parent).value, name);
      && r.calls == [RemoveDir(p)]
      && (!removed ==> r.fs == fs && r.reply == Error(ENOENT))
      && (removed ==> r.reply == Ok && r.fs.inodes == InodeTable.Forget(fs.inodes, p))
    ensures r.fs.handles == fs.handles
    ensures Consistent(fs) ==> Consistent(r.fs)
    ensures InodeTable.Bijective(fs.inodes) ==> InodeTable.Bijective(r.fs.inodes)
  {
    RemoveEntry(fs, parent, name, true, removed)
  }

  /** rename: both parents must resolve (the old one is checked first);
      after a successful host rename the identity entry moves. */
  function Rename<F>(fs: FS<F>, parent: nat, name: Name, newParent: nat, newName: Name, renamed: bool): (r: Outcome<F>)
    ensures InodeTable.GetPath(fs.inodes, parent).None? || InodeTable.GetPath(fs.inodes, newParent).None? ==>
      Refused(fs, r)
    ensures InodeTable.GetPath(fs.inodes, parent).Some? && InodeTable.GetPath(fs.inodes, newParent).Some? ==>
      var src := Join(InodeTable.GetPath(fs.inodes, parent).value, name);
      var dst := Join(InodeTable.GetPath(fs.inodes, newParent).value, newName);
      && r.calls == [RenamePath(src, dst)]
      && (!renamed ==> r.fs == fs && r.reply == Error(ENOENT))
      && (renamed ==> r.reply == Ok && r.fs.inodes == InodeTable.Move(fs.inodes, src, dst))
    ensures r.fs.handles == fs.handles
    ensures Consistent(fs) ==> Consistent(r.fs)
  {
    match InodeTable.GetPath(fs.inodes, parent)
    case None => Outcome(fs, [], Error(ENOENT))
    case Some(dir) =>
      match InodeTable.GetPath(fs.inodes, newParent)
      case None => Outcome(fs, [], Error(ENOENT))
      case Some(newDir) =>
        var src := Join(dir, name);
        var dst := Join(newDir, newName);
        if renamed then Outcome(fs.(inodes := InodeTable.Move(fs.inodes, src, dst)), [RenamePath(src, dst)], Ok)
        else Outcome(fs, [RenamePath(src, dst)], Error(ENOENT))
  }

  /** access: an existence check only; the mask is not evaluated. */
  function Access<F>(fs: FS<F>, ino: nat, mask: bv32, present: bool): (r: Outcome<F>)
    ensures r.fs == fs
    ensures InodeTable.GetPath(fs.inodes, ino).None? ==> Refused(fs, r)
    ensures InodeTable.GetPath(fs.inodes, ino).Some? ==>
      && r.calls == [Exists(InodeTable.GetPath(fs.inodes, ino).value)]
      && r.reply == (if present then Ok else Error(ENOENT))
  {
    match InodeTable.GetPath(fs.inodes, ino)
    case None => Outcome(fs, [], Error(ENOENT))
    case Some(p) => Outcome(fs, [Exists(p)], if present then Ok else Error(ENOENT))
  }

  /** readlink: reply the link target's bytes. */
  function ReadLinkOp<F>(fs: FS<F>, ino: nat, target: Option<seq<byte>>): (r: Outcome<F>)
    ensures r.fs == fs
    ensures InodeTable.GetPath(fs.inodes, ino).None? ==> Refused(fs, r)
    ensures InodeTable.GetPath(fs.inodes, ino).Some? ==>
      && r.calls == [ReadLink(InodeTable.GetPath(fs.inodes, ino).value)]
      && r.reply == (if target.Some? then Data(target.value) else Error(ENOENT))
  {
    match InodeTable.GetPath(fs.inodes, ino)
    case None => Outcome(fs, [], Error(ENOENT))
    case Some(p) =>
      match target
      case None => Outcome(fs, [ReadLink(p)], Error(ENOENT))
      case Some(bytes) => Outcome(fs, [ReadLink(p)], Data(bytes))
  }

  /** symlink: create the link; any failure of that step is ENOSYS. On
      success intern it and reply its entry from the non-following stat. */
  function SymlinkOp<F>(fs: FS<F>, parent: nat, name: Name, target: seq<byte>, made: bool,
                        stat: Option<Metadata>): (r: Outcome<F>)
    ensures InodeTable.GetPath(fs.inodes, parent).None? ==> Refused(fs, r)
    ensures InodeTable.GetPath(fs.inodes, parent).Some? ==>
      var p := Join(InodeTable.GetPath(fs.inodes, parent).value, name);
      && (!made ==> r == Outcome(fs, [MakeSymlink(target, p)], Error(ENOSYS)))
      && (made ==>
            && r.calls == [MakeSymlink(target, p), StatNoFollow(p)]
            && r.fs.inodes == InodeTable.Intern(fs.inodes, p).0
            && (stat.None? ==> r.reply == Error(ENOENT))
            && (stat.Some? ==>
                  r.reply == Entry(MetadataToAttr(stat.value, InodeTable.Intern(fs.inodes, p).1))))
    ensures r.fs.handles == fs.handles
    ensures Consistent(fs) ==> Consistent(r.fs)
    ensures InodeTable.Bijective(fs.inodes) ==> InodeTable.Bijective(r.fs.inodes)
  {
    match InodeTable.GetPath(fs.inodes, parent)
    case None => Outcome(fs, [], Error(ENOENT))
    case Some(dir) =>
      var p := Join(dir, name);
      if !made then Outcome(fs, [MakeSymlink(target, p)], Error(ENOSYS))
      else
        var (t, ino) := InodeTable.Intern(fs.inodes, p);
        var calls := [MakeSymlink(target, p), StatNoFollow(p)];
        match stat
        case None => Outcome(fs.(inodes := t), calls, Error(ENOENT))
        case Some(m) => Outcome(fs.(inodes := t), calls, Entry(MetadataToAttr(m, ino)))
  }

  /** flush and fsync: sync the file if the handle is open, and reply ok in
      every case; a sync failure is not observed. */
  function Sync<F>(fs: FS<F>, fh: nat): (r: Outcome<F>)
    ensures r.fs == fs && r.reply == Ok
    ensures r.calls == (if fh in fs.handles.openFiles then [SyncAll(fh)] else [])
  {
    match HandleTable.Get(fs.handles, fh)
    case Some(_) => Outcome(fs, [SyncAll(fh)], Ok)
    case None => Outcome(fs, [], Ok)
  }

  /** statfs: a fixed reply, no host call. */
  function StatFs<F>(fs: FS<F>): (r: Outcome<F>)
    ensures r.fs == fs && r.calls == []
    ensures r.reply.FsStats? && r.reply.bsize == 512 && r.reply.namelen == 255
    ensures r.reply.blocks == 0 && r.reply.bfree == 0 && r.reply.bavail == 0
    ensures r.reply.files == 0 && r.reply.ffree == 0 && r.reply.frsize == 0
  {
    Outcome(fs, [], FsStats(0, 0, 0, 0, 0, 512, 255, 0))
  }
}

=== FILE: paths.dfy ===
/** Relative paths under the mirrored root. A path is the sequence of its
    name components; the root is the empty path. */
module Paths {

  type Name = string
  type Path = seq<Name>

  const ROOT_PATH: Path := []

  /** `parent_path.join(name)` for a single-component name. */
  function Join(parent: Path, name: Name): (p: Path)
    ensures |p| == |parent| + 1
    ensures p != ROOT_PATH
    ensures p[..|parent|] == parent && p[|parent|] == name
  {
    parent + [name]
  }

  /** Joining is injective: the parent and the name can be read back. */
  lemma JoinInjective(a: Path, m: Name, b: Path, n: Name)
    requires Join(a, m) == Join(b, n)
    ensures a == b && m == n
  {
    assert a == Join(a, m)[..|a|];
    assert b == Join(b, n)[..|b|];
  }
}

=== FILE: readdir.dfy ===
/** Directory listing: the `. + .. + children` list readdir builds
    (interning every child as it goes), and the pagination that streams it
    into the kernel's reply buffer from a given offset. */
module Readdir {
  import opened Types
  import opened Paths
  import opened Attr
  import opened InodeTable

  /** One directory entry as the host enumerates it: its name and the result
      of asking for its metadata (`None` when that query fails). */
  datatype Child = Child(name: Name, meta: Option<Metadata>)

  /** One entry of the combined listing. */
  datatype Dirent = Dirent(ino: nat, kind: FileType, name: Name)

  /** One entry as added to the reply, with its cookie: the offset the
      kernel sends back to continue after it. */
  datatype Emitted = Emitted(ino: nat, cookie: nat, kind: FileType, name: Name)

  /** The number of successful enumeration items. */
  function CountSome(items: seq<Option<Child>>): nat
    decreases |items|
  {
    if items == [] then 0 else (if items[0].Some? then 1 else 0) + CountSome(items[1..])
  }

  lemma CountSomePrefixes(items: seq<Option<Child>>)
    requires items != []
    ensures forall j :: 0 < j <= |items| ==>
      CountSome(items[..j]) == (if items[0].Some? then 1 else 0) + CountSome(items[1..][..j - 1])
  {
    forall j | 0 < j <= |items|
      ensures CountSome(items[..j]) == (if items[0].Some? then 1 else 0) + CountSome(items[1..][..j - 1])
    {
      assert items[..j][1..] == items[1..][..j - 1];
    }
  }

  /** `entries.flatten()`: enumeration items that failed are skipped, the
      others keep their order. The successful item at index j lands at the
      position given by the number of successful items before it, so there
      is one child per successful item, in enumeration order. */
  function Flatten(items: seq<Option<Child>>): (cs: seq<Child>)
    ensures |cs| == CountSome(items) <= |items|
    ensures forall j :: 0 <= j < |items| && items[j].Some? ==>
      CountSome(items[..j]) < |cs| && cs[CountSome(items[..j])] == items[j].value
    ensures forall c :: c in cs <==> Some(c) in items
    decreases |items|
  {
    if items == [] then []
    else
      var rest := Flatten(items[1..]);
      CountSomePrefixes(items);
      assert items[..0] == [];
      assert forall j :: 0 < j < |items| ==> items[j] == items[1..][j - 1];
      assert forall c :: Some(c) in items <==> Some(c) == items[0] || Some(c) in items[1..];
      match items[0]
      case Some(c) => [c] + rest
      case None => rest
  }

  /** The kind reported for a child: classified from its metadata, and a
      regular file when the metadata query failed. */
  function ChildKind(meta: Option<Metadata>): (k: FileType)
    ensures meta.None? ==> k == RegularFile
    ensures meta.Some? ==> k == Classify(meta.value.isDir, meta.value.isSymlink)
  {
    match meta
    case Some(m) => Classify(m.isDir, m.isSymlink)
    case None => RegularFile
  }

  /** The paths of the children under `dir`. */
  function ChildPaths(dir: Path, cs: seq<Child>): set<Path>
  {
    set k | 0 <= k < |cs| :: Join(dir, cs[k].name)
  }

  lemma ChildPathsCons(dir: Path, cs: seq<Child>)
    requires cs != []
    ensures ChildPaths(dir, cs) == {Join(dir, cs[0].name)} + ChildPaths(dir, cs[1..])
  {
    forall p | p in ChildPaths(dir, cs) ensures p in {Join(dir, cs[0].name)} + ChildPaths(dir, cs[1..]) {
      var k :| 0 <= k < |cs| && p == Join(dir, cs[k].name);
      if k > 0 { assert cs[1..][k - 1] == cs[k]; }
    }
    forall p | p in ChildPaths(dir, cs[1..]) ensures p in ChildPaths(dir, cs) {
      var k :| 0 <= k < |cs[1..]| && p == Join(dir, cs[1..][k].name);
      assert cs[1..][k] == cs[k + 1];
    }
  }

  /** Intern every child under `dir`, in enumeration order, and build its
      listing entry: one entry per child, with the child's name and kind. */
  function InternChildren(t: Table, dir: Path, cs: seq<Child>): (r: (Table, seq<Dirent>))
    ensures |r.1| == |cs|
    ensures forall k :: 0 <= k < |cs| ==> r.1[k].name == cs[k].name && r.1[k].kind == ChildKind(cs[k].meta)
    decreases |cs|
  {
    if cs == [] then (t, [])
    else
      var (t1, ino) := Intern(t, Join(dir, cs[0].name));
      var (t2, rest) := InternChildren(t1, dir, cs[1..]);
      var out := [Dirent(ino, ChildKind(cs[0].meta), cs[0].name)] + rest;
      assert forall k :: 1 <= k < |cs| ==> out[k] == rest[k - 1] && cs[k] == cs[1..][k - 1];
      (t2, out)
  }

  /** The children's paths not in `known`, each once, in order of first
      occurrence: the paths readdir allocates new inodes for. */
  function NewPaths(known: set<Path>, dir: Path, cs: seq<Child>): seq<Path>
    decreases |cs|
  {
    if cs == [] then []
    else
      var p := Join(dir, cs[0].name);
      if p in known then NewPaths(known, dir, cs[1..])
      else [p] + NewPaths(known + {p}, dir, cs[1..])
  }

  /** Position of the first occurrence of `q` in `ps`; `|ps|` when absent. */
  function IndexOf(ps: seq<Path>, q: Path): nat
  {
    if ps == [] then 0 else if ps[0] == q then 0 else 1 + IndexOf(ps[1..], q)
  }

  /** A path is new exactly when it is a child's path not yet known. */
  lemma {:induction false} NewPathsMembers(known: set<Path>, dir: Path, cs: seq<Child>)
    ensures forall q :: q in NewPaths(known, dir, cs) <==> q in ChildPaths(dir, cs) && q !in known
    decreases |cs|
  {
    if cs == [] {
      assert ChildPaths(dir, cs) == {};
    } else {
      var p := Join(dir, cs[0].name);
      ChildPathsCons(dir, cs);
      if p in known {
        NewPathsMembers(known, dir, cs[1..]);
      } else {
        NewPathsMembers(known + {p}, dir, cs[1..]);
        assert NewPaths(known, dir, cs) == [p] + NewPaths(known + {p}, dir, cs[1..]);
      }
    }
  }

  /** No path is listed twice. */
  predicate Distinct(ps: seq<Path>) {
    forall i, j :: 0 <= i < j < |ps| ==> ps[i] != ps[j]
  }

  /** No new path is listed twice. */
  lemma {:induction false} NewPathsDistinct(known: set<Path>, dir: Path, cs: seq<Child>)
    ensures Distinct(NewPaths(known, dir, cs))
    decreases |cs|
  {
    if cs != [] {
      var p := Join(dir, cs[0].name);
      if p in known {
        NewPathsDistinct(known, dir, cs[1..]);
        assert NewPaths(known, dir, cs) == NewPaths(known, dir, cs[1..]);
      } else {
        NewPathsDistinct(known + {p}, dir, cs[1..]);
        NewPathsMembers(known + {p}, dir, cs[1..]);
        var ps := NewPaths(known, dir, cs);
        var rest := NewPaths(known + {p}, dir, cs[1..]);
        assert ps == [p] + rest;
        assert p !in rest;
        forall i, j | 0 <= i < j < |ps| ensures ps[i] != ps[j] {
          assert ps[j] == rest[j - 1];
          if i > 0 {
            assert ps[i] == rest[i - 1];
          } else {
            assert rest[j - 1] in rest;
          }
        }
      }
    }
  }

  /** There are as many new paths as children's paths not yet known. */
  lemma {:induction false} NewPathsCount(known: set<Path>, dir: Path, cs: seq<Child>)
    ensures |NewPaths(known, dir, cs)| == |ChildPaths(dir, cs) - known|
    decreases |cs|
  {
    if cs == [] {
      assert ChildPaths(dir, cs) == {};
    } else {
      var p := Join(dir, cs[0].name);
      ChildPathsCons(dir, cs);
      if p in known {
        NewPathsCount(known, dir, cs[1..]);
        assert ChildPaths(dir, cs) - known == ChildPaths(dir, cs[1..]) - known;
      } else {
        NewPathsCount(known + {p}, dir, cs[1..]);
        var rest := ChildPaths(dir, cs[1..]) - (known + {p});
        assert ChildPaths(dir, cs) - known == {p} + rest;
        assert p !in rest;
      }
    }
  }

  /** The new paths are exactly the children's paths not yet known, with no
      repetition, so there are as many as there are such paths. */
  lemma NewPathsAreTheNewChildren(known: set<Path>, dir: Path, cs: seq<Child>)
    ensures var ps := NewPaths(known, dir, cs);
      && (forall q :: q in ps <==> q in ChildPaths(dir, cs) && q !in known)
      && (forall i, j :: 0 <= i < j < |ps| ==> ps[i] != ps[j])
      && |ps| == |ChildPaths(dir, cs) - known|
  {
    NewPathsMembers(known, dir, cs);
    NewPathsDistinct(known, dir, cs);
    NewPathsCount(known, dir, cs);
    assert Distinct(NewPaths(known, dir, cs));
  }

  /** Interning the children advances the counter once per distinct new
      path. */
  lemma {:induction false} InternChildrenCounter(t: Table, dir: Path, cs: seq<Child>)
    ensures InternChildren(t, dir, cs).0.nextInode == t.nextInode + |NewPaths(t.pathToInode.Keys, dir, cs)|
    decreases |cs|
  {
    if cs != [] {
      var p0 := Join(dir, cs[0].name);
      var t1 := Intern(t, p0).0;
      InternChildrenCounter(t1, dir, cs[1..]);
      assert InternChildren(t, dir, cs).0 == InternChildren(t1, dir, cs[1..]).0;
      if p0 !in t.pathToInode {
        assert t1.pathToInode.Keys == t.pathToInode.Keys + {p0};
      }
    }
  }

  /** The inode the entry of child k carries: a known path's own inode, and
      for a new path the counter's value plus its position among the new
      paths. */
  lemma {:induction false} InternChildInode(t: Table, dir: Path, cs: seq<Child>, k: nat)
    requires k < |cs|
    ensures var r := InternChildren(t, dir, cs);
      var q := Join(dir, cs[k].name);
      && (q in t.pathToInode ==> r.1[k].ino == t.pathToInode[q])
      && (q !in t.pathToInode ==> r.1[k].ino == t.nextInode + IndexOf(NewPaths(t.pathToInode.Keys, dir, cs), q))
    decreases k
  {
    var r := InternChildren(t, dir, cs);
    var ps := NewPaths(t.pathToInode.Keys, dir, cs);
    var p0 := Join(dir, cs[0].name);
    var (t1, ino) := Intern(t, p0);
    var rest := InternChildren(t1, dir, cs[1..]).1;
    var ps1 := NewPaths(t1.pathToInode.Keys, dir, cs[1..]);
    assert r.1 == [Dirent(ino, ChildKind(cs[0].meta), cs[0].name)] + rest;
    if p0 in t.pathToInode {
      assert t1 == t && ps == ps1;
    } else {
      assert t1.pathToInode.Keys == t.pathToInode.Keys + {p0};
      assert ps == [p0] + ps1 && ps[1..] == ps1;
    }
    if k > 0 {
      var q := Join(dir, cs[k].name);
      InternChildInode(t1, dir, cs[1..], k - 1);
      assert r.1[k] == rest[k - 1] && cs[k] == cs[1..][k - 1];
      if p0 !in t.pathToInode && q !in t.pathToInode && q != p0 {
        assert q !in t1.pathToInode;
        assert IndexOf(ps, q) == 1 + IndexOf(ps1, q);
      }
    }
  }

  lemma InternChildrenInodes(t: Table, dir: Path, cs: seq<Child>)
    ensures var r := InternChildren(t, dir, cs);
      var ps := NewPaths(t.pathToInode.Keys, dir, cs);
      forall k :: 0 <= k < |cs| ==>
        && (Join(dir, cs[k].name) in t.pathToInode ==> r.1[k].ino == t.pathToInode[Join(dir, cs[k].name)])
        && (Join(dir, cs[k].name) !in t.pathToInode ==> r.1[k].ino == t.nextInode + IndexOf(ps, Join(dir, cs[k].name)))
  {
    forall k | 0 <= k < |cs|
      ensures var r := InternChildren(t, dir, cs);
        && (Join(dir, cs[k].name) in t.pathToInode ==> r.1[k].ino == t.pathToInode[Join(dir, cs[k].name)])
        && (Join(dir, cs[k].name) !in t.pathToInode ==>
              r.1[k].ino == t.nextInode + IndexOf(NewPaths(t.pathToInode.Keys, dir, cs), Join(dir, cs[k].name)))
    {
      InternChildInode(t, dir, cs, k);
    }
  }

  /** readdir allocates inodes in enumeration order: a child already known
      keeps its inode, and a new child gets the counter's value plus the
      number of distinct new paths first met before it; the counter ends
      advanced by the number of distinct new paths. */
  lemma InternChildrenAllocatesInOrder(t: Table, dir: Path, cs: seq<Child>)
    ensures var r := InternChildren(t, dir, cs);
      var ps := NewPaths(t.pathToInode.Keys, dir, cs);
      && r.0.nextInode == t.nextInode + |ChildPaths(dir, cs) - t.pathToInode.Keys|
      && forall k :: 0 <= k < |cs| ==>
           && (Join(dir, cs[k].name) in t.pathToInode ==> r.1[k].ino == t.pathToInode[Join(dir, cs[k].name)])
           && (Join(dir, cs[k].name) !in t.pathToInode ==> r.1[k].ino == t.nextInode + IndexOf(ps, Join(dir, cs[k].name)))
  {
    NewPathsAreTheNewChildren(t.pathToInode.Keys, dir, cs);
    InternChildrenCounter(t, dir, cs);
    InternChildrenInodes(t, dir, cs);
  }

  /** Listing `x` then `y` in a fresh root gives `x` inode 2 and `y` inode 3,
      and leaves the counter at 4. */
  lemma AllocationOrderExample()
    ensures var r := InternChildren(Init(), ROOT_PATH, [Child("x", None), Child("y", None)]);
      r.1[0].ino == 2 && r.1[1].ino == 3 && r.0.nextInode == 4
  {
    var cs := [Child("x", None), Child("y", None)];
    var t0 := Init();
    var (t1, i1) := Intern(t0, Join(ROOT_PATH, "x"));
    assert Join(ROOT_PATH, "x") !in t0.pathToInode && i1 == 2 && t1.nextInode == 3;
    var (t2, i2) := Intern(t1, Join(ROOT_PATH, "y"));
    assert Join(ROOT_PATH, "y") !in t1.pathToInode && i2 == 3 && t2.nextInode == 4;
    var ys := [Child("y", None)];
    assert cs[1..] == ys && ys[1..] == [];
    assert InternChildren(t2, ROOT_PATH, []) == (t2, []);
    var r1 := InternChildren(t1, ROOT_PATH, ys);
    assert ys[0].name == "y";
    assert r1.0 == t2 && r1.1[0].ino == 3;
    var r := InternChildren(t0, ROOT_PATH, cs);
    assert cs[0].name == "x";
    assert r.0 == r1.0 && r.1[0].ino == 2 && r.1[1] == r1.1[0];
  }

  /** Listing a coherent table keeps it coherent and only adds to it, and
      each entry carries the inode its child's path now resolves to. */
  lemma {:induction false} InternChildrenResolves(t: Table, dir: Path, cs: seq<Child>)
    ensures var r := InternChildren(t, dir, cs);
      Coherent(t) ==>
      && Coherent(r.0)
      && Extends(t, r.0)
      && forall k :: 0 <= k < |cs| ==> GetPath(r.0, r.1[k].ino) == Some(Join(dir, cs[k].name))
    decreases |cs|
  {
    var r := InternChildren(t, dir, cs);
    if cs != [] && Coherent(t) {
      var p := Join(dir, cs[0].name);
      var (t1, ino) := Intern(t, p);
      InternChildrenResolves(t1, dir, cs[1..]);
      var (t2, rest) := InternChildren(t1, dir, cs[1..]);
      assert r == (t2, [Dirent(ino, ChildKind(cs[0].meta), cs[0].name)] + rest);
      ExtendsTransitive(t, t1, t2);
      assert GetPath(t2, r.1[0].ino) == Some(p);
      forall k | 1 <= k < |cs|
        ensures GetPath(r.0, r.1[k].ino) == Some(Join(dir, cs[k].name))
      {
        assert r.1[k] == rest[k - 1] && cs[k] == cs[1..][k - 1];
      }
    }
  }

  /** Listing a directory reuses no inode: the only new inodes are the
      ones interning hands out. */
  lemma {:induction false} InternChildrenNoReuse(t: Table, dir: Path, cs: seq<Child>)
    ensures NoReuse(t, InternChildren(t, dir, cs).0)
    decreases |cs|
  {
    if cs != [] {
      var t1 := Intern(t, Join(dir, cs[0].name)).0;
      InternChildrenNoReuse(t1, dir, cs[1..]);
      assert InternChildren(t, dir, cs).0 == InternChildren(t1, dir, cs[1..]).0;
      NoReuseTransitive(t, t1, InternChildren(t1, dir, cs[1..]).0);
    }
  }

  /** Listing a directory adds exactly the children's paths to the path
      map, and keeps the two maps exact inverses when they were. */
  lemma {:induction false} InternChildrenAddsExactlyChildren(t: Table, dir: Path, cs: seq<Child>)
    ensures InternChildren(t, dir, cs).0.pathToInode.Keys == t.pathToInode.Keys + ChildPaths(dir, cs)
    ensures Bijective(t) ==> Bijective(InternChildren(t, dir, cs).0)
    decreases |cs|
  {
    if cs != [] {
      var t1 := Intern(t, Join(dir, cs[0].name)).0;
      InternChildrenAddsExactlyChildren(t1, dir, cs[1..]);
      ChildPathsCons(dir, cs);
      assert InternChildren(t, dir, cs).0 == InternChildren(t1, dir, cs[1..]).0;
    }
  }

  /** Interning children never changes an existing path's inode. */
  lemma {:induction false} InternChildrenKeepsPathMap(t: Table, dir: Path, cs: seq<Child>)
    ensures var u := InternChildren(t, dir, cs).0;
      forall q :: q in t.pathToInode ==> q in u.pathToInode && u.pathToInode[q] == t.pathToInode[q]
    decreases |cs|
  {
    if cs != [] {
      var t1 := Intern(t, Join(dir, cs[0].name)).0;
      InternChildrenKeepsPathMap(t1, dir, cs[1..]);
      assert InternChildren(t, dir, cs).0 == InternChildren(t1, dir, cs[1..]).0;
    }
  }

  /** After interning, each child's path maps to the inode of its entry. */
  lemma {:induction false} InternChildrenPathMap(t: Table, dir: Path, cs: seq<Child>)
    ensures var r := InternChildren(t, dir, cs);
      forall k :: 0 <= k < |cs| ==>
        Join(dir, cs[k].name) in r.0.pathToInode && r.0.pathToInode[Join(dir, cs[k].name)] == r.1[k].ino
    decreases |cs|
  {
    if cs != [] {
      var r := InternChildren(t, dir, cs);
      var (t1, ino) := Intern(t, Join(dir, cs[0].name));
      InternChildrenPathMap(t1, dir, cs[1..]);
      InternChildrenKeepsPathMap(t1, dir, cs[1..]);
      var (t2, rest) := InternChildren(t1, dir, cs[1..]);
      assert r == (t2, [Dirent(ino, ChildKind(cs[0].meta), cs[0].name)] + rest);
      forall k | 1 <= k < |cs|
        ensures Join(dir, cs[k].name) in r.0.pathToInode && r.0.pathToInode[Join(dir, cs[k].name)] == r.1[k].ino
      {
        assert r.1[k] == rest[k - 1] && cs[k] == cs[1..][k - 1];
      }
    }
  }

  /** Children whose paths are all interned already leave the table as it
      is, and each entry carries the inode its path already had. */
  lemma {:induction false} InternKnownChildren(t: Table, dir: Path, cs: seq<Child>)
    requires forall k :: 0 <= k < |cs| ==> Join(dir, cs[k].name) in t.pathToInode
    ensures var r := InternChildren(t, dir, cs);
      && r.0 == t
      && forall k :: 0 <= k < |cs| ==> r.1[k].ino == t.pathToInode[Join(dir, cs[k].name)]
    decreases |cs|
  {
    if cs != [] {
      assert forall k :: 0 <= k < |cs| - 1 ==> cs[1..][k] == cs[k + 1];
      InternKnownChildren(t, dir, cs[1..]);
      var r := InternChildren(t, dir, cs);
      var rest := InternChildren(t, dir, cs[1..]).1;
      assert r.1 == [Dirent(t.pathToInode[Join(dir, cs[0].name)], ChildKind(cs[0].meta), cs[0].name)] + rest;
      forall k | 1 <= k < |cs|
        ensures r.1[k].ino == t.pathToInode[Join(dir, cs[k].name)]
      {
        assert r.1[k] == rest[k - 1] && cs[k] == cs[1..][k - 1];
      }
    }
  }

  /** The combined list of readdir: `.` and `..`, both carrying the listed
      directory's own inode and typed Directory, then the children in
      enumeration order, each interned under `dir` joined with its name. */
  function Listing(t: Table, ino: nat, dir: Path, cs: seq<Child>): (r: (Table, seq<Dirent>))
    ensures |r.1| == |cs| + 2
    ensures r.1[0] == Dirent(ino, Directory, ".") && r.1[1] == Dirent(ino, Directory, "..")
    ensures forall k :: 0 <= k < |cs| ==> r.1[k + 2].name == cs[k].name && r.1[k + 2].kind == ChildKind(cs[k].meta)
    ensures r.0.pathToInode.Keys == t.pathToInode.Keys + ChildPaths(dir, cs)
    ensures Coherent(t) ==>
      && Coherent(r.0)
      && Extends(t, r.0)
      && forall k :: 0 <= k < |cs| ==> GetPath(r.0, r.1[k + 2].ino) == Some(Join(dir, cs[k].name))
    ensures Bijective(t) ==> Bijective(r.0)
    ensures NoReuse(t, r.0)
  {
    var (t', children) := InternChildren(t, dir, cs);
    InternChildrenAddsExactlyChildren(t, dir, cs);
    InternChildrenNoReuse(t, dir, cs);
    InternChildrenResolves(t, dir, cs);
    var out := [Dirent(ino, Directory, "."), Dirent(ino, Directory, "..")] + children;
    assert forall k :: 0 <= k < |cs| ==> out[k + 2] == children[k];
    (t', out)
  }

  /** Listing the same children again, on the table the first listing
      left, changes nothing and yields the same entries: every child is
      interned by then and keeps its inode. */
  lemma ListingIsStable(t: Table, ino: nat, dir: Path, cs: seq<Child>)
    ensures var (u, all) := Listing(t, ino, dir, cs);
      Listing(u, ino, dir, cs) == (u, all)
  {
    var (u, children) := InternChildren(t, dir, cs);
    InternChildrenPathMap(t, dir, cs);
    InternKnownChildren(u, dir, cs);
    var again := InternChildren(u, dir, cs).1;
    assert forall k :: 0 <= k < |cs| ==> again[k] == children[k];
    assert again == children;
  }

  /** Size of the fixed `fuse_dirent` header. */
  const DIRENT_HEADER: nat := 24

  /** Bytes one entry takes in the reply buffer: header plus name, rounded
      up to a multiple of 8 (the rule of the fuser reply buffer). */
  function DirentSize(name: Name): (n: nat)
    ensures n % 8 == 0 && DIRENT_HEADER + |name| <= n < DIRENT_HEADER + |name| + 8
  {
    ((DIRENT_HEADER + |name| + 7) / 8) * 8
  }

  /** Total buffer bytes taken by emitted entries. */
  function Used(es: seq<Emitted>): nat
  {
    if es == [] then 0 else DirentSize(es[0].name) + Used(es[1..])
  }

  /** The entry at listing index i, as the reply receives it: cookie i + 1. */
  function EmitAt(all: seq<Dirent>, i: nat): Emitted
    requires i < |all|
  {
    Emitted(all[i].ino, i + 1, all[i].kind, all[i].name)
  }

  /** The entries one readdir reply carries when emission starts at listing
      index i with `room` bytes left: entries are added in order until the
      first one that does not fit, which is not added and ends the reply. */
  function Page(all: seq<Dirent>, i: nat, room: nat): seq<Emitted>
    decreases |all| - i
  {
    if i >= |all| then []
    else if DirentSize(all[i].name) > room then []
    else [EmitAt(all, i)] + Page(all, i + 1, room - DirentSize(all[i].name))
  }

  /** A reply is the contiguous run of the listing from index i, each entry
      with cookie index + 1; it fits the buffer, and it stops only at the end
      of the listing or at the first entry that would overflow the buffer. */
  lemma {:induction false} PageIsMaximalRun(all: seq<Dirent>, i: nat, room: nat)
    ensures var out := Page(all, i, room);
      && (i + |out| <= |all| || out == [])
      && (forall k :: 0 <= k < |out| ==> i + k < |all| && out[k] == EmitAt(all, i + k))
      && Used(out) <= room
      && (i + |out| < |all| ==> Used(out) + DirentSize(all[i + |out|].name) > room)
    decreases |all| - i
  {
    if i < |all| && DirentSize(all[i].name) <= room {
      var size := DirentSize(all[i].name);
      PageIsMaximalRun(all, i + 1, room - size);
      var rest := Page(all, i + 1, room - size);
      var out := [EmitAt(all, i)] + rest;
      assert Page(all, i, room) == out;
      assert out[1..] == rest;
      assert Used(out) == size + Used(rest);
      assert forall k :: 1 <= k < |out| ==> out[k] == rest[k - 1];
    }
  }

  /** `all_entries.iter().enumerate().skip(offset as usize)`, adding each
      entry until the reply buffer of `capacity` bytes reports full. */
  method Paginate(all: seq<Dirent>, offset: i64, capacity: nat) returns (out: seq<Emitted>)
    ensures out == Page(all, AsU64(offset), capacity)
  {
    var i: nat := AsU64(offset);
    ghost var page := Page(all, i, capacity);
    var used: nat := 0;
    out := [];
    while i < |all|
      invariant used <= capacity
      invariant page == out + Page(all, i, capacity - used)
      decreases |all| - i
    {
      var size := DirentSize(all[i].name);
      if used + size > capacity {
        break;
      }
      ghost var rest := Page(all, i + 1, capacity - used - size);
      assert Page(all, i, capacity - used) == [EmitAt(all, i)] + rest;
      out := out + [EmitAt(all, i)];
      used := used + size;
      i := i + 1;
    }
  }

  /** Cookies are consecutive from `offset + 1`, and an offset at or past
      the end of the listing emits nothing. */
  lemma PageCookies(all: seq<Dirent>, offset: nat, capacity: nat)
    ensures var out := Page(all, offset, capacity);
      && (forall k :: 0 <= k < |out| ==> out[k].cookie == offset + k + 1)
      && (offset >= |all| ==> out == [])
  {
    PageIsMaximalRun(all, offset, capacity);
  }

  /** What the kernel sees when it pages through the listing, each call
      starting at the cookie of the last entry of the previous reply. */
  function AllPages(all: seq<Dirent>, i: nat, capacity: nat): seq<Emitted>
    decreases |all| - i
  {
    var out := Page(all, i, capacity);
    PageIsMaximalRun(all, i, capacity);
    if out == [] then [] else out + AllPages(all, out[|out| - 1].cookie, capacity)
  }

  /** Paging covers the listing with no duplicates and no omissions: when
      every entry fits an empty reply buffer, the successive replies
      together are the listing from index i on, each entry once, in order. */
  lemma {:induction false} AllPagesCoverListing(all: seq<Dirent>, i: nat, capacity: nat)
    requires forall k :: 0 <= k < |all| ==> DirentSize(all[k].name) <= capacity
    requires i <= |all|
    ensures var pages := AllPages(all, i, capacity);
      && |pages| == |all| - i
      && forall k :: 0 <= k < |pages| ==> pages[k] == EmitAt(all, i + k)
    decreases |all| - i
  {
    var out := Page(all, i, capacity);
    PageIsMaximalRun(all, i, capacity);
    if i < |all| {
      assert out != [] by {
        assert Used([]) == 0;
      }
      var next := out[|out| - 1].cookie;
      assert next == i + |out|;
      AllPagesCoverListing(all, next, capacity);
      var pages := AllPages(all, i, capacity);
      assert pages == out + AllPages(all, next, capacity);
    }
  }
}

=== FILE: session.dfy ===
/** A session as a sequence of requests, each paired with what the host
    answered to it, and the properties that hold across requests. */
module Session {
  import opened Types
  import opened Paths
  import opened Attr
  import opened OpenFlags
  import opened Readdir
  import InodeTable
  import HandleTable
  import opened Passthrough

  /** One protocol request together with the host's answers to the calls
      it makes. */
  datatype Request<F> =
    | LookupReq(parent: nat, name: Name, stat: Option<Metadata>)
    | GetAttrReq(ino: nat, stat: Option<Metadata>)
    | SetAttrReq(ino: nat, newMode: Option<bv32>, uid: Option<u32>, gid: Option<u32>,
                 newSize: Option<u64>, truncOpened: bool, stat: Option<Metadata>)
    | ReadReq(fh: nat, offset: i64, len: u32, seekOk: bool, read: Option<seq<byte>>)
    | WriteReq(fh: nat, offset: i64, data: seq<byte>, seekOk: bool, written: Option<u64>)
    | ReadDirReq(ino: nat, offset: i64, capacity: nat, listing: Option<seq<Option<Child>>>)
    | OpenReq(ino: nat, flags: bv32, file: Option<F>)
    | ReleaseReq(fh: nat)
    | CreateReq(parent: nat, name: Name, mode: bv32, flags: bv32, file: Option<F>, stat: Option<Metadata>)
    | MkdirReq(parent: nat, name: Name, mode: bv32, made: bool, stat: Option<Metadata>)
    | UnlinkReq(parent: nat, name: Name, removed: bool)
    | RmdirReq(parent: nat, name: Name, removed: bool)
    | RenameReq(parent: nat, name: Name, newParent: nat, newName: Name, renamed: bool)
    | AccessReq(ino: nat, mask: bv32, present: bool)
    | ReadLinkReq(ino: nat, linkTarget: Option<seq<byte>>)
    | SymlinkReq(parent: nat, name: Name, target: seq<byte>, made: bool, stat: Option<Metadata>)
    | FlushReq(fh: nat)
    | FsyncReq(fh: nat)
    | StatFsReq

  /** The host keeps its own contracts (a read never overfills the buffer). */
  predicate HostContract<F>(req: Request<F>)
  {
    req.ReadReq? ==> ReadFitsBuffer(req.len, req.read)
  }

  /** Dispatch one request to its callback. Only open, create and release
      touch the handle table; only the requests that name a file by its
      parent and name, and readdir, touch the identity table. */
  function Step<F>(fs: FS<F>, req: Request<F>): (r: Outcome<F>)
    requires HostContract(req)
    ensures r.fs.handles == fs.handles || req.OpenReq? || req.CreateReq? || req.ReleaseReq?
    ensures r.fs.inodes == fs.inodes || ByName(req) || req.ReadDirReq?
  {
    match req
    case LookupReq(parent, name, stat) => Lookup(fs, parent, name, stat)
    case GetAttrReq(ino, stat) => GetAttr(fs, ino, stat)
    case SetAttrReq(ino, mode, uid, gid, size, truncOpened, stat) =>
      SetAttr(fs, ino, mode, uid, gid, size, truncOpened, stat)
    case ReadReq(fh, offset, len, seekOk, read) => Read(fs, fh, offset, len, seekOk, read)
    case WriteReq(fh, offset, data, seekOk, written) => Write(fs, fh, offset, data, seekOk, written)
    case ReadDirReq(ino, offset, capacity, listing) => ReadDir(fs, ino, offset, capacity, listing)
    case OpenReq(ino, flags, file) => Open(fs, ino, flags, file)
    case ReleaseReq(fh) => Release(fs, fh)
    case CreateReq(parent, name, mode, flags, file, stat) => Create(fs, parent, name, mode, flags, file, stat)
    case MkdirReq(parent, name, mode, made, stat) => Mkdir(fs, parent, name, mode, made, stat)
    case UnlinkReq(parent, name, removed) => Unlink(fs, parent, name, removed)
    case RmdirReq(parent, name, removed) => Rmdir(fs, parent, name, removed)
    case RenameReq(parent, name, newParent, newName, renamed) =>
      Rename(fs, parent, name, newParent, newName, renamed)
    case AccessReq(ino, mask, present) => Access(fs, ino, mask, present)
    case ReadLinkReq(ino, target) => ReadLinkOp(fs, ino, target)
    case SymlinkReq(parent, name, target, made, stat) => SymlinkOp(fs, parent, name, target, made, stat)
    case FlushReq(fh) => Sync(fs, fh)
    case FsyncReq(fh) => Sync(fs, fh)
    case StatFsReq => StatFs(fs)
  }

  /** Neither inode numbers nor handles are reused from `a` to `b`. */
  ghost predicate NoReuse<F>(a: FS<F>, b: FS<F>) {
    InodeTable.NoReuse(a.inodes, b.inodes) && HandleTable.NoReuse(a.handles, b.handles)
  }

  /** Serve a sequence of requests in order; returns the final state and
      one reply per request. From a consistent state the session ends
      consistent, and no inode number or handle it ever dropped is handed
      out again. */
  function Run<F>(fs: FS<F>, reqs: seq<Request<F>>): (r: (FS<F>, seq<Reply>))
    requires forall k :: 0 <= k < |reqs| ==> HostContract(reqs[k])
    ensures |r.1| == |reqs|
    ensures Consistent(fs) ==> Consistent(r.0) && NoReuse(fs, r.0)
    decreases |reqs|
  {
    if reqs == [] then (fs, [])
    else
      var o := Step(fs, reqs[0]);
      StepGuarantees(fs, reqs[0]);
      var (final, replies) := Run(o.fs, reqs[1..]);
      InodeTable.NoReuseTransitive(fs.inodes, o.fs.inodes, final.inodes);
      HandleTable.NoReuseTransitive(fs.handles, o.fs.handles, final.handles);
      (final, [o.reply] + replies)
  }

  /** A session is its requests' callbacks applied one after another: reply
      k is the reply of request k's callback on the state the first k
      requests left, and that callback's state is the one the first k + 1
      requests leave. */
  lemma {:induction false} RunIsStepByStep<F>(fs: FS<F>, reqs: seq<Request<F>>, k: nat)
    requires forall j :: 0 <= j < |reqs| ==> HostContract(reqs[j])
    requires k < |reqs|
    ensures var o := Step(Run(fs, reqs[..k]).0, reqs[k]);
      && Run(fs, reqs).1[k] == o.reply
      && Run(fs, reqs[..k + 1]).0 == o.fs
    decreases k
  {
    var o0 := Step(fs, reqs[0]);
    assert reqs[..k + 1][0] == reqs[0] && reqs[..k + 1][1..] == reqs[1..][..k];
    if k == 0 {
      assert reqs[..0] == [];
      assert reqs[..1][1..] == [];
    } else {
      RunIsStepByStep(o0.fs, reqs[1..], k - 1);
      assert reqs[..k][0] == reqs[0] && reqs[..k][1..] == reqs[1..][..k - 1];
      assert reqs[1..][k - 1] == reqs[k];
      assert Run(fs, reqs[..k]).0 == Run(o0.fs, reqs[1..][..k - 1]).0;
      assert Run(fs, reqs).1[k] == Run(o0.fs, reqs[1..]).1[k - 1];
    }
  }

  /** Requests that name an entry by parent inode and name. */
  predicate ByName<F>(req: Request<F>) {
    || req.LookupReq? || req.CreateReq? || req.MkdirReq? || req.SymlinkReq?
    || req.UnlinkReq? || req.RmdirReq? || req.RenameReq?
  }

  /** Requests that name a file by its inode alone. */
  predicate ByInode<F>(req: Request<F>) {
    || req.GetAttrReq? || req.SetAttrReq? || req.ReadDirReq? || req.OpenReq?
    || req.AccessReq? || req.ReadLinkReq?
  }

  lemma NameStepKeepsConsistent<F>(fs: FS<F>, req: Request<F>)
    requires ByName(req) && Consistent(fs)
    ensures Consistent(Step(fs, req).fs)
  {
    match req
    case LookupReq(parent, name, stat) =>
    case CreateReq(parent, name, mode, flags, file, stat) =>
    case MkdirReq(parent, name, mode, made, stat) =>
    case SymlinkReq(parent, name, target, made, stat) =>
    case UnlinkReq(parent, name, removed) =>
    case RmdirReq(parent, name, removed) =>
    case RenameReq(parent, name, newParent, newName, renamed) =>
  }

  lemma InodeStepKeepsConsistent<F>(fs: FS<F>, req: Request<F>)
    requires ByInode(req) && Consistent(fs)
    ensures Consistent(Step(fs, req).fs)
  {
    match req
    case GetAttrReq(ino, stat) =>
    case SetAttrReq(ino, mode, uid, gid, size, truncOpened, stat) =>
    case ReadDirReq(ino, offset, capacity, listing) =>
    case OpenReq(ino, flags, file) =>
    case AccessReq(ino, mask, present) =>
    case ReadLinkReq(ino, target) =>
  }

  lemma HandleStepKeepsConsistent<F>(fs: FS<F>, req: Request<F>)
    requires !ByName(req) && !ByInode(req) && HostContract(req) && Consistent(fs)
    ensures Consistent(Step(fs, req).fs)
  {
    match req
    case ReadReq(fh, offset, len, seekOk, read) =>
    case WriteReq(fh, offset, data, seekOk, written) =>
    case ReleaseReq(fh) =>
    case FlushReq(fh) =>
    case FsyncReq(fh) =>
    case StatFsReq =>
  }

  /** Every callback keeps the session invariant. */
  lemma StepKeepsConsistent<F>(fs: FS<F>, req: Request<F>)
    requires HostContract(req)
    requires Consistent(fs)
    ensures Consistent(Step(fs, req).fs)
  {
    if ByName(req) {
      NameStepKeepsConsistent(fs, req);
    } else if ByInode(req) {
      InodeStepKeepsConsistent(fs, req);
    } else {
      HandleStepKeepsConsistent(fs, req);
    }
  }

  lemma NameStepNoReuse<F>(fs: FS<F>, req: Request<F>)
    requires ByName(req) && Consistent(fs)
    ensures NoReuse(fs, Step(fs, req).fs)
  {
    match req
    case LookupReq(parent, name, stat) =>
    case CreateReq(parent, name, mode, flags, file, stat) =>
    case MkdirReq(parent, name, mode, made, stat) =>
    case SymlinkReq(parent, name, target, made, stat) =>
    case UnlinkReq(parent, name, removed) =>
    case RmdirReq(parent, name, removed) =>
    case RenameReq(parent, name, newParent, newName, renamed) =>
  }

  lemma OtherStepNoReuse<F>(fs: FS<F>, req: Request<F>)
    requires !ByName(req) && HostContract(req)
    ensures NoReuse(fs, Step(fs, req).fs)
  {
    match req
    case GetAttrReq(ino, stat) =>
    case SetAttrReq(ino, mode, uid, gid, size, truncOpened, stat) =>
    case ReadDirReq(ino, offset, capacity, listing) =>
    case OpenReq(ino, flags, file) =>
    case AccessReq(ino, mask, present) =>
    case ReadLinkReq(ino, target) =>
    case ReadReq(fh, offset, len, seekOk, read) =>
    case WriteReq(fh, offset, data, seekOk, written) =>
    case ReleaseReq(fh) =>
    case FlushReq(fh) =>
    case FsyncReq(fh) =>
    case StatFsReq =>
  }

  /** No callback reuses an inode number or a handle: the counters never go
      down, and whatever a callback adds lies at or above them. */
  lemma StepNeverReuses<F>(fs: FS<F>, req: Request<F>)
    requires HostContract(req)
    requires Consistent(fs)
    ensures NoReuse(fs, Step(fs, req).fs)
  {
    if ByName(req) {
      NameStepNoReuse(fs, req);
    } else {
      OtherStepNoReuse(fs, req);
    }
  }

  /** The two per-request guarantees, for a state that may or may not be
      consistent. */
  lemma StepGuarantees<F>(fs: FS<F>, req: Request<F>)
    requires HostContract(req)
    ensures Consistent(fs) ==> Consistent(Step(fs, req).fs) && NoReuse(fs, Step(fs, req).fs)
  {
    if Consistent(fs) {
      StepKeepsConsistent(fs, req);
      StepNeverReuses(fs, req);
    }
  }

  /** A successful rename whose source is interned and whose destination is
      a different, already interned path. */
  ghost predicate Clobbers<F>(fs: FS<F>, req: Request<F>) {
    && req.RenameReq? && req.renamed
    && InodeTable.GetPath(fs.inodes, req.parent).Some?
    && InodeTable.GetPath(fs.inodes, req.newParent).Some?
    && var src := Join(InodeTable.GetPath(fs.inodes, req.parent).value, req.name);
       var dst := Join(InodeTable.GetPath(fs.inodes, req.newParent).value, req.newName);
       src in fs.inodes.pathToInode && dst in fs.inodes.pathToInode && src != dst
  }

  lemma NameStepKeepsBijective<F>(fs: FS<F>, req: Request<F>)
    requires ByName(req) && InodeTable.Bijective(fs.inodes)
    ensures !Clobbers(fs, req) <==> InodeTable.Bijective(Step(fs, req).fs.inodes)
  {
    match req
    case LookupReq(parent, name, stat) =>
    case CreateReq(parent, name, mode, flags, file, stat) =>
    case MkdirReq(parent, name, mode, made, stat) =>
    case SymlinkReq(parent, name, target, made, stat) =>
    case UnlinkReq(parent, name, removed) =>
    case RmdirReq(parent, name, removed) =>
    case RenameReq(parent, name, newParent, newName, renamed) =>
      if Clobbers(fs, req) {
        var src := Join(InodeTable.GetPath(fs.inodes, parent).value, name);
        var dst := Join(InodeTable.GetPath(fs.inodes, newParent).value, newName);
        InodeTable.MoveOntoInternedTargetLeavesStaleInode(fs.inodes, src, dst);
      }
  }

  lemma OtherStepKeepsBijective<F>(fs: FS<F>, req: Request<F>)
    requires !ByName(req) && HostContract(req) && InodeTable.Bijective(fs.inodes)
    ensures InodeTable.Bijective(Step(fs, req).fs.inodes)
  {
    match req
    case GetAttrReq(ino, stat) =>
    case SetAttrReq(ino, mode, uid, gid, size, truncOpened, stat) =>
    case ReadDirReq(ino, offset, capacity, listing) =>
    case OpenReq(ino, flags, file) =>
    case AccessReq(ino, mask, present) =>
    case ReadLinkReq(ino, target) =>
    case ReadReq(fh, offset, len, seekOk, read) =>
    case WriteReq(fh, offset, data, seekOk, written) =>
    case ReleaseReq(fh) =>
    case FlushReq(fh) =>
    case FsyncReq(fh) =>
    case StatFsReq =>
  }

  /** Every callback except a clobbering rename keeps the two maps exact
      inverses; a clobbering rename never does. */
  lemma StepKeepsBijective<F>(fs: FS<F>, req: Request<F>)
    requires HostContract(req)
    requires InodeTable.Bijective(fs.inodes)
    ensures !Clobbers(fs, req) <==> InodeTable.Bijective(Step(fs, req).fs.inodes)
  {
    if ByName(req) {
      NameStepKeepsBijective(fs, req);
    } else {
      OtherStepKeepsBijective(fs, req);
    }
  }

  /** No request of the session is a clobbering rename at the moment it is served. */
  ghost predicate NeverClobbers<F>(fs: FS<F>, reqs: seq<Request<F>>)
    requires forall k :: 0 <= k < |reqs| ==> HostContract(reqs[k])
    decreases |reqs|
  {
    reqs != [] ==> !Clobbers(fs, reqs[0]) && NeverClobbers(Step(fs, reqs[0]).fs, reqs[1..])
  }

  /** A session without clobbering renames keeps the bijection. */
  lemma {:induction false} RunKeepsBijective<F>(fs: FS<F>, reqs: seq<Request<F>>)
    requires forall k :: 0 <= k < |reqs| ==> HostContract(reqs[k])
    requires InodeTable.Bijective(fs.inodes)
    requires NeverClobbers(fs, reqs)
    ensures InodeTable.Bijective(Run(fs, reqs).0.inodes)
    decreases |reqs|
  {
    if reqs != [] {
      StepKeepsBijective(fs, reqs[0]);
      RunKeepsBijective(Step(fs, reqs[0]).fs, reqs[1..]);
    }
  }

  /** The inode a lookup hands out names the looked-up path: a getattr on it
      stats exactly that path. */
  lemma LookupThenGetAttr<F>(fs: FS<F>, parent: nat, name: Name, m: Metadata, later: Option<Metadata>)
    requires Consistent(fs)
    requires InodeTable.GetPath(fs.inodes, parent).Some?
    ensures var r := Lookup(fs, parent, name, Some(m));
      GetAttr(r.fs, r.reply.attr.ino, later).calls
        == [Stat(Join(InodeTable.GetPath(fs.inodes, parent).value, name))]
  {
  }

  /** After a successful rename the moved inode follows the entry: a
      getattr on it stats the new path, and looking up the new name gives
      the same inode back (the new parent not being the moved entry itself,
      which the host refuses). */
  lemma RenamedInodeFollowsEntry<F>(fs: FS<F>, parent: nat, name: Name, newParent: nat, newName: Name,
                                    m: Metadata)
    requires Consistent(fs)
    requires InodeTable.GetPath(fs.inodes, parent).Some? && InodeTable.GetPath(fs.inodes, newParent).Some?
    requires Join(InodeTable.GetPath(fs.inodes, parent).value, name) in fs.inodes.pathToInode
    requires newParent != fs.inodes.pathToInode[Join(InodeTable.GetPath(fs.inodes, parent).value, name)]
    ensures var src := Join(InodeTable.GetPath(fs.inodes, parent).value, name);
      var dst := Join(InodeTable.GetPath(fs.inodes, newParent).value, newName);
      var i := fs.inodes.pathToInode[src];
      var after := Rename(fs, parent, name, newParent, newName, true).fs;
      && GetAttr(after, i, Some(m)).calls == [Stat(dst)]
      && Lookup(after, newParent, newName, Some(m)).reply == Entry(MetadataToAttr(m, i))
  {
  }

  /** After a successful unlink of an interned path, its inode is unknown:
      a getattr on it is refused without any host call. */
  lemma UnlinkedInodeIsUnknown<F>(fs: FS<F>, parent: nat, name: Name, later: Option<Metadata>)
    requires InodeTable.GetPath(fs.inodes, parent).Some?
    requires Join(InodeTable.GetPath(fs.inodes, parent).value, name) in fs.inodes.pathToInode
    ensures var i := fs.inodes.pathToInode[Join(InodeTable.GetPath(fs.inodes, parent).value, name)];
      GetAttr(Unlink(fs, parent, name, true).fs, i, later) == Outcome(Unlink(fs, parent, name, true).fs, [], Error(ENOENT))
  {
  }

  /** Once unlinked, an inode number never comes back: no later session of
      requests, whatever the host answers, interns it again. */
  lemma UnlinkedInodeNeverReturns<F>(fs: FS<F>, parent: nat, name: Name, reqs: seq<Request<F>>)
    requires Consistent(fs)
    requires InodeTable.GetPath(fs.inodes, parent).Some?
    requires Join(InodeTable.GetPath(fs.inodes, parent).value, name) in fs.inodes.pathToInode
    requires forall k :: 0 <= k < |reqs| ==> HostContract(reqs[k])
    ensures var i := fs.inodes.pathToInode[Join(InodeTable.GetPath(fs.inodes, parent).value, name)];
      i !in Run(Unlink(fs, parent, name, true).fs, reqs).0.inodes.inodeToPath
  {
    var p := Join(InodeTable.GetPath(fs.inodes, parent).value, name);
    var i := fs.inodes.pathToInode[p];
    var after := Unlink(fs, parent, name, true).fs;
    assert i in fs.inodes.inodeToPath && i < fs.inodes.nextInode;
    assert i !in after.inodes.inodeToPath && after.inodes.nextInode == fs.inodes.nextInode;
    var final := Run(after, reqs).0;
    assert InodeTable.NoReuse(after.inodes, final.inodes);
  }

  /** Reading a directory again with the same enumeration, from any offset,
      pages through the very entry list the first read paged through, and
      changes nothing: so the cookies one read hands out stay valid for the
      next. */
  lemma ReadDirAgainPagesSameListing<F>(fs: FS<F>, ino: nat, o1: i64, o2: i64, cap1: nat, cap2: nat,
                                        items: seq<Option<Child>>)
    requires Consistent(fs)
    requires InodeTable.GetPath(fs.inodes, ino).Some?
    ensures var dir := InodeTable.GetPath(fs.inodes, ino).value;
      var all := Listing(fs.inodes, ino, dir, Flatten(items)).1;
      var r1 := ReadDir(fs, ino, o1, cap1, Some(items));
      var r2 := ReadDir(r1.fs, ino, o2, cap2, Some(items));
      && r1.reply == DirEntries(Page(all, AsU64(o1), cap1))
      && r2.fs == r1.fs
      && r2.reply == DirEntries(Page(all, AsU64(o2), cap2))
  {
    var dir := InodeTable.GetPath(fs.inodes, ino).value;
    var cs := Flatten(items);
    var (t, all) := Listing(fs.inodes, ino, dir, cs);
    var r1 := ReadDir(fs, ino, o1, cap1, Some(items));
    assert r1.fs.inodes == t;
    assert InodeTable.GetPath(t, ino) == Some(dir);
    ListingIsStable(fs.inodes, ino, dir, cs);
  }

  /** The handle a reply hands to the kernel, if any: open's and create's. */
  function IssuedHandle(reply: Reply): Option<nat> {
    match reply
    case Opened(fh) => Some(fh)
    case Created(_, fh) => Some(fh)
    case _ => None
  }

  /** The handles a sequence of replies hands out, in reply order. */
  function IssuedHandles(replies: seq<Reply>): seq<nat> {
    if replies == [] then []
    else (match IssuedHandle(replies[0]) case Some(fh) => [fh] case None => [])
         + IssuedHandles(replies[1..])
  }

  /** A request never lowers the handle counter, and a handle it replies is
      the counter's value, which it then advances past. */
  lemma StepIssuesNextHandle<F>(fs: FS<F>, req: Request<F>)
    requires HostContract(req)
    ensures var o := Step(fs, req);
      && fs.handles.nextFh <= o.fs.handles.nextFh
      && (IssuedHandle(o.reply).Some? ==>
            IssuedHandle(o.reply).value == fs.handles.nextFh < o.fs.handles.nextFh)
  {
    match req
    case LookupReq(parent, name, stat) =>
    case CreateReq(parent, name, mode, flags, file, stat) =>
    case MkdirReq(parent, name, mode, made, stat) =>
    case SymlinkReq(parent, name, target, made, stat) =>
    case UnlinkReq(parent, name, removed) =>
    case RmdirReq(parent, name, removed) =>
    case RenameReq(parent, name, newParent, newName, renamed) =>
    case GetAttrReq(ino, stat) =>
    case SetAttrReq(ino, mode, uid, gid, size, truncOpened, stat) =>
    case ReadDirReq(ino, offset, capacity, listing) =>
    case OpenReq(ino, flags, file) =>
    case AccessReq(ino, mask, present) =>
    case ReadLinkReq(ino, target) =>
    case ReadReq(fh, offset, len, seekOk, read) =>
    case WriteReq(fh, offset, data, seekOk, written) =>
    case ReleaseReq(fh) =>
    case FlushReq(fh) =>
    case FsyncReq(fh) =>
    case StatFsReq =>
  }

  /** The handles lie in [lo, hi) and strictly increase. */
  predicate IncreasingWithin(hs: seq<nat>, lo: nat, hi: nat) {
    && (forall i :: 0 <= i < |hs| ==> lo <= hs[i] < hi)
    && (forall i, j :: 0 <= i < j < |hs| ==> hs[i] < hs[j])
  }

  lemma IncreasingConcat(a: seq<nat>, b: seq<nat>, lo: nat, mid: nat, hi: nat)
    requires lo <= mid <= hi
    requires IncreasingWithin(a, lo, mid) && IncreasingWithin(b, mid, hi)
    ensures IncreasingWithin(a + b, lo, hi)
  {
    forall i | 0 <= i < |a + b|
      ensures lo <= (a + b)[i] < hi
    {
      if i >= |a| {
        assert (a + b)[i] == b[i - |a|];
      }
    }
    forall i, j | 0 <= i < j < |a + b|
      ensures (a + b)[i] < (a + b)[j]
    {
      if i >= |a| {
        assert (a + b)[i] == b[i - |a|] && (a + b)[j] == b[j - |a|];
      } else if j >= |a| {
        assert (a + b)[j] == b[j - |a|];
      }
    }
  }

  /** Across any session of callbacks the handles replied to the kernel
      strictly increase and lie between the starting and the final handle
      counter: no two replies ever share a handle. */
  lemma {:induction false} RunIssuesIncreasingHandles<F>(fs: FS<F>, reqs: seq<Request<F>>)
    requires forall k :: 0 <= k < |reqs| ==> HostContract(reqs[k])
    ensures var (final, replies) := Run(fs, reqs);
      && fs.handles.nextFh <= final.handles.nextFh
      && IncreasingWithin(IssuedHandles(replies), fs.handles.nextFh, final.handles.nextFh)
    decreases |reqs|
  {
    if reqs != [] {
      var o := Step(fs, reqs[0]);
      StepIssuesNextHandle(fs, reqs[0]);
      RunIssuesIncreasingHandles(o.fs, reqs[1..]);
      var (final, replies) := Run(fs, reqs);
      var rest := Run(o.fs, reqs[1..]).1;
      assert replies == [o.reply] + rest;
      assert replies[1..] == rest;
      var head := match IssuedHandle(o.reply) case Some(fh) => [fh] case None => [];
      assert IssuedHandles(replies) == head + IssuedHandles(rest);
      IncreasingConcat(head, IssuedHandles(rest), fs.handles.nextFh, o.fs.handles.nextFh, final.handles.nextFh);
    }
  }

  /** Two successful opens, even of the same inode, get distinct handles,
      and both stay open. */
  lemma OpenTwiceGivesDistinctHandles<F>(fs: FS<F>, ino: nat, flags1: bv32, flags2: bv32, f1: F, f2: F)
    requires Consistent(fs)
    requires InodeTable.GetPath(fs.inodes, ino).Some?
    requires StdAccepts(OpenOptionsForOpen(flags1)) && StdAccepts(OpenOptionsForOpen(flags2))
    ensures var r1 := Open(fs, ino, flags1, Some(f1));
      var r2 := Open(r1.fs, ino, flags2, Some(f2));
      && r1.reply.Opened? && r2.reply.Opened?
      && r1.reply.fh != r2.reply.fh
      && HandleTable.Get(r2.fs.handles, r1.reply.fh) == Some(f1)
      && HandleTable.Get(r2.fs.handles, r2.reply.fh) == Some(f2)
  {
  }

  /** A released handle reads as unknown: read on it is refused. */
  lemma ReleasedHandleIsRefused<F>(fs: FS<F>, fh: nat, offset: i64, len: u32, seekOk: bool, read: Option<seq<byte>>)
    requires ReadFitsBuffer(len, read)
    ensures var after := Release(fs, fh).fs;
      Read(after, fh, offset, len, seekOk, read) == Outcome(after, [], Error(ENOENT))
  {
  }

  /** access never looks at its mask. */
  lemma AccessIgnoresMask<F>(fs: FS<F>, ino: nat, m1: bv32, m2: bv32, present: bool)
    ensures Access(fs, ino, m1, present) == Access(fs, ino, m2, present)
  {
  }
}

=== FILE: types.dfy ===
/** Machine integer widths, the Option wrapper and the narrowing casts the
    passthrough filesystem relies on. Dafny integers are unbounded, so every
    width the Rust source uses is a subset type here and every `as` cast that
    can lose bits is written out. */
module Types {

  const TWO_32: int := 0x1_0000_0000
  const TWO_63: int := 0x8000_0000_0000_0000
  const TWO_64: int := 0x1_0000_0000_0000_0000

  type u32 = x: int | 0 <= x < 0x1_0000_0000
  type u64 = x: int | 0 <= x < 0x1_0000_0000_0000_0000
  type i64 = x: int | -0x8000_0000_0000_0000 <= x < 0x8000_0000_0000_0000
  type byte = x: int | 0 <= x < 0x100

  /** `u32::MAX`, which chown(2) reads as "leave this id unchanged". */
  const U32_MAX: u32 := 0xFFFF_FFFF

  datatype Option<+T> = None | Some(value: T)

  /** Rust's `x as u32` on a `u64`: keeps the low 32 bits, never fails. */
  function Trunc32(x: u64): (r: u32)
    ensures r <= x
    ensures x < TWO_32 <==> r == x
    ensures exists k: nat :: k < TWO_32 && x == k * TWO_32 + r
  {
    var k := x / TWO_32;
    assert x == k * TWO_32 + x % TWO_32;
    x % TWO_32
  }

  /** Rust's `x as u64` on an `i64` (and `as usize` on a 64-bit host):
      a two's complement reinterpretation, so a negative value becomes huge. */
  function AsU64(x: i64): (r: u64)
    ensures 0 <= x ==> r == x
    ensures x < 0 ==> TWO_63 <= r
    ensures (r - x) % TWO_64 == 0
  {
    if x < 0 then x + TWO_64 else x
  }
}
